=== FILE: README.md ===
# Phoenix recruitment page — a Dafny model of its form logic

The recruitment landing page collects a candidate's application in three tiers:

- **Browser** (`script.js`): it masks the phone number as it is typed and checks the e-mail, phone and age. It checks the size and extension of the résumé file. `podeEnviar` allows one submission every 30 seconds, but its refusal only calls `preventDefault` in a listener of its own, which cannot stop the separate listener that schedules the send, so it never stops one (see Findings).
- **Serverless endpoint** (`api/submit.js`): it sanitises every field and runs a fixed ladder of checks, each with its own HTTP status. It then appends a nine-cell row to a Google Sheet.
- **Google Apps Script web app** (`google-apps-script-upload.js`): it stores the résumé in Drive under a unique name with a MIME type taken from the extension. It then writes a six-cell row and sends a notification e-mail.

This project restates that logic as pure Dafny functions over `seq<char>` and proves what each tier promises. It also proves how the tiers relate to each other.

| module | file | contents |
|---|---|---|
| `JsText` | `js_text.dfy` | ECMAScript white space and `\d`, `trim`, ASCII `toLowerCase`, `split` on one character, the text after the last separator |
| `JsNumber` | `js_number.dfy` | `parseInt` without a radix (sign, `0x` prefix, longest digit run, NaN as `None`); the decimal text of an integer |
| `SubmitApi` | `submit_api.dfy` | `sanitizeInput`; the e-mail and phone patterns as predicates; the method/size/required/format ladder; the row; the response status |
| `ClientForm` | `client_form.dfy` | `aplicarMascaraTelefone`, `validarEmail`, `validarTelefone`, `validarIdade`, the file `change` check, `podeEnviar` with the clock as a parameter |
| `AppsScript` | `apps_script.dfy` | `getMimeType` (as written and as intended), the data-URL prefix strip, the unique Drive file name, `doPost` and `salvarNaPlanilha` with Drive, Sheets and Mail reduced to outcomes |
| `Consistency` | `consistency.dfy` | properties that cross tiers: mask against server pattern, e-mail patterns, age parsing after sanitising, file check against the MIME table |

Each regular expression is an explicit predicate. JavaScript's `\d` is the ten ASCII digits. `\s` and `trim` share one white-space predicate, `IsJsWhitespace`: the ECMAScript WhiteSpace and LineTerminator code points.

Absent body fields are `None`, and JavaScript truthiness of a string is `Present`: present and not empty. External services appear as parameters:

- `AppendOutcome`: what `sheets.spreadsheets.values.append` did;
- `DriveOutcome`: what the Drive save did;
- `ServiceOutcome`: what `appendRow` or `sendEmail` did;
- a `configured` flag: whether the environment variables are set.

Clocks appear as `now`, `timestamp` and `stamp` parameters.

`sanitizeInput` deletes only `< > " '` (api/submit.js:8) and escapes nothing. A failed Drive save is rethrown (google-apps-script-upload.js:94), so the request fails with no row written.

## Model

| member | source | states |
|---|---|---|
| `JsText.Trim` | api/submit.js:7 | the input is white space, then the result, then white space; the result neither starts nor ends with white space |
| `JsText.TrimKeepsTrimmed` | api/submit.js:7 | text that neither starts nor ends with white space is its own trim |
| `JsText.ToLowerAscii` | google-apps-script-upload.js:99 | `toLowerCase` on ASCII: same length, no capital A–Z left, and a character changes exactly when it is a capital A–Z, which becomes its lower-case letter |
| `JsText.ToLowerAsciiIdempotent` | google-apps-script-upload.js:99 | lower-casing twice is lower-casing once |
| `JsText.Split` | google-apps-script-upload.js:67 | `split` on one character: at least one piece, none containing the separator; `JoinSplit` and `SplitJoin` make it the inverse of joining with the separator |
| `JsText.JoinSplit` | google-apps-script-upload.js:99 | joining the pieces of `split(sep)` with `sep` gives back the input |
| `JsText.SplitJoin` | google-apps-script-upload.js:67 | splitting a join of separator-free pieces gives back exactly those pieces |
| `JsText.SplitWithoutSeparator` | google-apps-script-upload.js:67 | text without the separator splits into itself alone |
| `JsText.LastSegment` | google-apps-script-upload.js:99 | `split(sep).pop()` is a separator-free suffix of the input, either the whole input or preceded by `sep` |
| `JsText.Utf16Length` | api/submit.js:83 | a string's JavaScript `length`: between its number of code points and twice that, and equal to it exactly when every code point is in the Basic Multilingual Plane; `Utf16LengthOfChar` and `Utf16LengthConcat` give its exact value |
| `JsText.Utf16LengthOfChar` | api/submit.js:83 | one code point counts 1 in the Basic Multilingual Plane and 2 outside it |
| `JsText.Utf16LengthConcat` | api/submit.js:83 | the length of a concatenation is the sum of the lengths |
| `JsText.LastSegmentAfter` | script.js:71 | the last piece of `p + sep + e` is `e` whenever `e` has no separator |
| `JsNumber.DigitPrefix` | api/submit.js:109 | the longest prefix of radix digits: a prefix, all digits, and stopped by a non-digit or the end |
| `JsNumber.Decimal` | google-apps-script-upload.js:81 | the printed timestamp is a non-empty run of ASCII digits with no leading zero unless the number is 0 |
| `JsNumber.DecimalValue` | google-apps-script-upload.js:81 | reading the printed decimal text back in radix 10 gives the number |
| `JsNumber.SignedDecimalInjective` | google-apps-script-upload.js:81 | distinct integers print as distinct texts |
| `JsNumber.ParseIntSkipsWhitespace` | api/submit.js:109 | `parseInt` ignores leading white space |
| `JsNumber.ParseInt` | api/submit.js:109 | `parseInt` without a radix; no contract of its own, characterised by `ParseIntSkipsWhitespace`, `ParseIntOfDigitRun`, `ParseIntOfDecimal`, `ParseIntOfNegativeDecimal`, `ParseIntWithoutDigits` and `ParseMagnitudeHex` |
| `JsNumber.ParseIntOfDecimal` | api/submit.js:109 | white space, the decimal text of `n`, then any text not starting with a digit (nor with `x` after a lone `0`) parses as `n` |
| `JsNumber.ParseIntOfNegativeDecimal` | api/submit.js:109 | the same after a `-` parses as `-n` |
| `JsNumber.ParseIntOfDigitRun` | api/submit.js:109 | after any white space, with no sign, `+` or `-`, any run of decimal digits (leading zeros included) followed by text that does not continue it (nor makes a lone `0` a `0x` prefix) parses as the run's value, negated after `-` |
| `JsNumber.ParseIntWithoutDigits` | api/submit.js:109-110 | white space followed by text that starts with neither a digit, white space nor a sign is NaN, which the age check refuses |
| `JsNumber.ParseMagnitudeHex` | api/submit.js:109 | after `0x`/`0X` the longest hexadecimal run is read in radix 16 |
| `JsNumber.ParseIntHexSixteen` | api/submit.js:109 | `parseInt("0x10")` is 16 |
| `SubmitApi.RemoveDangerous` | api/submit.js:8 | the result is no longer than the input, contains none of `< > " '`, and every character of it occurs in the input |
| `SubmitApi.RemoveDangerousCounts` | api/submit.js:8 | every other character is kept exactly as often as it occurs |
| `SubmitApi.RemoveDangerousKeepsClean` | api/submit.js:8 | text without `< > " '` is unchanged by the deletion |
| `SubmitApi.RemoveDangerousConcat` | api/submit.js:8 | deletion distributes over concatenation |
| `SubmitApi.Sanitize` | api/submit.js:4-10 | at most 1000 characters, none of `< > " '`, all taken from the input |
| `SubmitApi.SanitizeTrimsDeletesTruncates` | api/submit.js:6-9 | on every string: trim, then delete `< > " '`, then keep at most the first 1000 characters |
| `SubmitApi.SanitizeKeepsCleanInput` | api/submit.js:6-9 | trimmed, clean text of at most 1000 characters passes unchanged |
| `SubmitApi.SanitizeTruncatesCleanText` | api/submit.js:6-9 | when the trimmed text is clean, the result is its first min(1000, length) characters |
| `SubmitApi.SanitizeJoinsAroundDeleted` | api/submit.js:6-9 | a dangerous character between clean text is deleted and its neighbours join |
| `SubmitApi.SanitizeNotIdempotent` | api/submit.js:6-9 | trimming happens before deletion, so `a <` sanitises to `a ` and then to `a` |
| `SubmitApi.SanitizeKeepsAmpersand` | api/submit.js:8 | `&` is not deleted: `&lt;b&gt;` passes through |
| `SubmitApi.SanitizeField` | api/submit.js:5-10 | a missing field stays missing; a present one becomes clean text (at most 1000 characters, none of `< > " '`); a field that is non-empty afterwards was non-empty before |
| `SubmitApi.SanitizeFields` | api/submit.js:64-72 | every present field and both free texts are clean text of at most 1000 characters; an absent or empty experience or motivation becomes `''` |
| `SubmitApi.FormatRefusal` | api/submit.js:83-115 | the checks run in order (name length 2–100 in UTF-16 code units, e-mail, phone, age) and the first failing one is the refusal; none fails exactly when all pass |
| `SubmitApi.ServerEmailPattern` | api/submit.js:91 | the server's e-mail pattern; no contract of its own, characterised by `LowerCasedEmailStillMatches`, `ServerEmailLength`, `Consistency.ServerEmailIsClientEmail` and `Consistency.ClientEmailNotServerEmail` |
| `SubmitApi.ServerPhonePattern` | api/submit.js:98 | the server's phone pattern; no contract of its own, characterised by `Consistency.LayoutMatchesServer` and `Consistency.SanitizeKeepsServerPhone` |
| `SubmitApi.CandidateRow` | api/submit.js:149-159 | nine cells: date, name, lower-cased e-mail, phone, the parsed age (16 to 99) as a number, position, experience, motivation, `Novo` |
| `SubmitApi.Validate` | api/submit.js:75-115 | a missing required field is refused first; acceptance happens exactly when every required field is present and every format check passes, and then the row is the candidate row; a refusal of present fields is the first failing format check |
| `SubmitApi.Handle` | api/submit.js:30-61 | OPTIONS is a preflight and nothing else is; the refusal is `MethodNotAllowed` exactly for a method other than OPTIONS and POST, and `PayloadTooLarge` exactly for an oversized POST; acceptance and every 400 refusal need a POST within the size limit |
| `SubmitApi.HandleFollowsLadder` | api/submit.js:64-115 | for a POST within the size limit: a missing field is refused as missing; with every field present, the request is refused exactly when a format check fails, with that check's reason, and otherwise accepted with the candidate's row |
| `SubmitApi.RefusalErrorsDistinct` | api/submit.js:42-112 | the seven refusals carry pairwise different `error` texts, so the text identifies the refusal |
| `SubmitApi.ResponseStatus` | api/submit.js:128-200 | preflight is 200; a refusal answers with its own status, never 200; an accepted request gets 200 exactly when the service is configured and the append returned 200, and 500 otherwise |
| `SubmitApi.AcceptedRequestIsValid` | api/submit.js:83-115 | every accepted request has a name of 2–100 UTF-16 code units, a pattern-matching e-mail of at most 254 characters, a pattern-matching phone and an age read as 16–99, stored as that number |
| `SubmitApi.RequestStatus` | api/submit.js:30-200 | a request ends in 200 exactly when it is a preflight, or a POST within the size limit whose sanitised fields are present and pass every format check, with the service configured and an append that returned 200; every other request ends in 400, 405, 413 or 500; 405 exactly for a method other than OPTIONS and POST, 413 exactly for an oversized POST |
| `SubmitApi.ServerEmailLength` | api/submit.js:91-92 | an address matching the server pattern is ASCII, so `email.length` is its number of characters |
| `SubmitApi.EmojiNameLength` | api/submit.js:83 | a name of one emoji passes the length check, because JavaScript counts its two code units |
| `SubmitApi.MissingFieldComesFirst` | api/submit.js:71-80 | a POST within the size limit with a required field missing or sanitised to `''` is refused as missing, whatever the other fields hold |
| `SubmitApi.LowerCasedEmailStillMatches` | api/submit.js:152 | the lower-cased address stored in the row still matches the server pattern |
| `ClientForm.DigitsOf` | script.js:29 | the result has only ASCII digits and is no longer than the input |
| `ClientForm.DigitsOfConcat` | script.js:101 | the digits of a concatenation are the concatenated digits |
| `ClientForm.FirstDigitRun` | script.js:32 | the first place, at or after `from`, where a run of `width` digits starts; no earlier place has one, and none at all when absent |
| `ClientForm.ReplaceFirstGroups` | script.js:32-34 | `replace` with a group pattern and no `g` flag; no contract of its own, characterised by `ReplaceInDigits`, `ReplaceInShortDigits` and `DigitsOfReplace` |
| `ClientForm.ReplaceInDigits` | script.js:32-34 | on a digit string long enough for the groups, the first match starts at the beginning: the groups are laid out as `(a) b-c` and the other digits follow |
| `ClientForm.ReplaceInShortDigits` | script.js:32-34 | a digit string too short for the groups has no match and is unchanged |
| `ClientForm.MaskByDigitCount` | script.js:31-35 | fewer than 10 digits stay bare; 10 give `(DD) DDDD-DDDD`; 11 give `(DD) DDDDD-DDDD`; beyond 11 the first 11 are laid out and the rest follow |
| `ClientForm.MaskPhone` | script.js:28-38 | `aplicarMascaraTelefone`; no contract of its own, characterised by `MaskByDigitCount`, `MaskKeepsDigits`, `MaskIdempotent` and `Consistency.MaskedPhoneMatchesServer` |
| `ClientForm.DigitsOfReplace` | script.js:32-34 | replacing the first group match of a digit string keeps its digits, in order |
| `ClientForm.MaskKeepsDigits` | script.js:29-37 | the masked text has exactly the input's digits, in order |
| `ClientForm.MaskIdempotent` | script.js:29-37 | masking a masked number changes nothing |
| `ClientForm.ValidEmailWitness` | script.js:94-97 | any `@` with a later `.`, and non-empty text without white space or `@` around both, makes the address valid |
| `ClientForm.ValidEmail` | script.js:94-97 | `validarEmail`; no contract of its own, characterised by `ValidEmailWitness`, `ValidEmailRejects` and `Consistency.ServerEmailIsClientEmail` |
| `ClientForm.ValidPhone` | script.js:100-103 | `validarTelefone`; no contract of its own, characterised by `Consistency.ServerPhoneIsClientPhone` and `Consistency.MaskedPhoneMatchesServer` |
| `ClientForm.ValidAge` | script.js:106-109 | `validarIdade`, written from the client's own test; no contract of its own, characterised by `ValidAgeOfDecimalThen`, `ValidAgeHex`, `ValidAgeTooYoung` and `Consistency.ClientAgeIsServerAge` |
| `ClientForm.ValidEmailRejects` | script.js:95 | `not-an-email` and `a@b` are rejected |
| `ClientForm.ValidAgeOfDecimalThen` | script.js:106-109 | a decimal age from 16 to 99 followed by any non-digit text is valid |
| `ClientForm.ValidAgeIgnoresTrailingText` | script.js:106-109 | `25 anos` is a valid age |
| `ClientForm.ValidAgeHex` | script.js:106-109 | `0x10` is the valid age 16 |
| `ClientForm.ValidAgeTooYoung` | script.js:106-109 | `15` is refused |
| `ClientForm.CheckSelectedFile` | script.js:58-79 | too large exactly when over 5 MiB; accepted exactly when within the limit and the lower-cased text after the last `.` is `pdf`, `doc` or `docx` |
| `ClientForm.UpperCaseExtensionAccepted` | script.js:70-73 | `CV.PDF` is accepted |
| `ClientForm.LastExtensionDecides` | script.js:71-73 | `cv.pdf.exe` is refused |
| `ClientForm.DotlessNameAccepted` | script.js:71-73 | a file named `pdf` is accepted, its whole name being the extension |
| `ClientForm.CanSend` | script.js:296-305 | allowed exactly when 30 s have passed; an allowed attempt records `now`, a refused one keeps the state; the wait reported is the remaining time rounded up to whole seconds, 1 to 30 when the clock has not gone back |
| `ClientForm.Run` | script.js:293-305 | `podeEnviar` applied to attempts in order; its contract bounds the sends by the attempts, and `RunKeepsInterval` states the interval it keeps |
| `ClientForm.SubmitRunAsWrittenSendsAllValid` | script.js:114-157 | with the send listener never consulting `podeEnviar`, every submission whose form passes is sent, whatever `podeEnviar` answers |
| `ClientForm.SubmitRunAsWritten` | script.js:114-157 | submit events as wired; its contract bounds the sends by the events, and `SubmitRunAsWrittenSendsAllValid` states that every valid submission is sent |
| `ClientForm.SubmitRunAsWrittenIgnoresInterval` | script.js:308-316 | two valid submissions 1 ms apart are both sent, although `podeEnviar` refuses the second, so the sends are not 30 s apart |
| `ClientForm.SubmitRunGuarded` | script.js:293-316 | with the guard deciding the send, every send lies 30 s after the previous one and after the starting state's last send |
| `ClientForm.SubmitRunGuardedIsRun` | script.js:296-316 | the guarded wiring is `podeEnviar` applied to exactly the submissions whose form passes |
| `ClientForm.RunKeepsInterval` | script.js:293-305 | over any sequence of attempts, every accepted time is an attempt time, at least 30 s after the initial state and after every earlier accepted time, and the state holds the last accepted time |
| `AppsScript.ExtensionIsSuffix` | google-apps-script-upload.js:99 | for a dot-free `ext`, the lower-cased last extension is `ext` exactly when the name ends in `.ext` or is `ext`, in any letter case |
| `AppsScript.Extension` | google-apps-script-upload.js:99 | the lower-cased text after the last `.`; no contract of its own, characterised by `ExtensionIsSuffix` and `MimeTypeDependsOnExtensionOnly` |
| `AppsScript.MimeType` | google-apps-script-upload.js:98-108 | the PDF, Word and Word XML types exactly for names ending in `.pdf`, `.doc` and `.docx` in any case, and `application/octet-stream` exactly for every other name |
| `AppsScript.MimeTypeDependsOnExtensionOnly` | google-apps-script-upload.js:99-107 | two names with the same lower-cased last extension get the same type |
| `AppsScript.MimeTypeAsWritten` | google-apps-script-upload.js:107 | the lookup as written never falls through to `undefined` |
| `AppsScript.MimeTypeAsWrittenLeaksPrototype` | google-apps-script-upload.js:99-107 | `cv.constructor` gets the inherited `constructor` member instead of a MIME type string |
| `AppsScript.MimeTypeAsWrittenElsewhere` | google-apps-script-upload.js:101-107 | away from the inherited keys, the lookup as written agrees with the intended table |
| `AppsScript.StripDataUrlPrefix` | google-apps-script-upload.js:67 | the result is the input, or it is non-empty and has no comma |
| `AppsScript.StripTakesFirstPiece` | google-apps-script-upload.js:67 | a changed result is the text of the input between the first comma and the next comma or the end |
| `AppsScript.StripWithoutComma` | google-apps-script-upload.js:67 | input without a comma is returned unchanged |
| `AppsScript.StripAfterFirstComma` | google-apps-script-upload.js:67 | for `prefix,body` followed by nothing or another comma: `body` when it is non-empty, the whole input otherwise |
| `AppsScript.SafeCandidateName` | google-apps-script-upload.js:81 | same length as the name; letters and digits kept; every other character becomes `_` |
| `AppsScript.SafeCandidateNameIdempotent` | google-apps-script-upload.js:81 | replacing again changes nothing |
| `AppsScript.UniqueFileName` | google-apps-script-upload.js:81 | starts with the safe candidate name and `_`, and ends with the original file name |
| `AppsScript.UniqueFileNameInjective` | google-apps-script-upload.js:80-81 | for a fixed candidate and file name, different timestamps give different file names |
| `AppsScript.DriveRequestFor` | google-apps-script-upload.js:64-84 | the blob holds the data after the data-URL prefix, the type for the file's extension and the unique name, so the stored file's name ends with the uploaded file name |
| `AppsScript.SheetRow` | google-apps-script-upload.js:114-121 | six cells: timestamp, name, e-mail and phone as given, then the file cell, which is `Não enviado` exactly when the URL is empty (or is that very text), otherwise the URL; the status is `Novo` |
| `AppsScript.DoPost` | google-apps-script-upload.js:22-62 | the answer is success or error; success exactly when the body parses, name, e-mail and phone are present, a requested file was saved and the row was written; no call is made for an unparseable body or a missing field |
| `AppsScript.WriteAndNotify` | google-apps-script-upload.js:39-42 | success exactly when the row write succeeded; the row is the first new call; on success the last call is the e-mail with the file URL, and on a failed write the row write is the only new call, so no e-mail is sent |
| `AppsScript.WriteAndNotifyAppends` | google-apps-script-upload.js:39-42 | the earlier calls are kept in order and followed by one or two new ones (the row write, then the e-mail), neither of them a file save |
| `AppsScript.SaveAttemptedOnlyWithFile` | google-apps-script-upload.js:28-36 | a Drive save is attempted exactly when the required fields are present and both file fields are given; it is then the first call, and no later call is a save |
| `AppsScript.DriveFailureWritesNoRow` | google-apps-script-upload.js:92-95 | a Drive failure is rethrown: the answer is an error and the only call is the save of the blob built from the request |
| `AppsScript.SheetFailureSendsNoMail` | google-apps-script-upload.js:38-42 | with the fields present and any requested file saved, a failed row write is rethrown (line 128): the answer is an error and the calls are the optional save and the row write, with no e-mail |
| `AppsScript.MailFailureIgnored` | google-apps-script-upload.js:155-161 | the e-mail outcome changes neither the answer nor the calls made |
| `AppsScript.SuccessOrder` | google-apps-script-upload.js:33-50 | on success the calls are the optional save, the row write, then the e-mail; the row carries the saved URL or `Não enviado`, and the candidate's name |
| `AppsScript.SuccessEffects` | google-apps-script-upload.js:33-45 | on success the calls are exactly: the save of the blob built from the request when a file was given, the append of `salvarNaPlanilha`'s row for the data and the saved URL (`''` without a file), then the e-mail with that URL |
| `Consistency.ServerEmailIsClientEmail` | api/submit.js:91 | every address the server's pattern accepts, the browser's pattern accepts too |
| `Consistency.ClientEmailNotServerEmail` | script.js:95 | the converse fails: `á@b.cd` passes the browser and not the server |
| `Consistency.ServerPhoneIsClientPhone` | api/submit.js:100 | every phone the server accepts has 10 or 11 digits, so the browser accepts it |
| `Consistency.LayoutMatchesServer` | script.js:32-34 | the mask's layouts of 2, 4 or 5, and 4 digits match the server's phone pattern |
| `Consistency.MaskedPhoneMatchesServer` | script.js:31-35 | the masked text matches the server's pattern exactly when the browser's phone check passes |
| `Consistency.SanitizeKeepsServerPhone` | api/submit.js:6-9 | text in the server's phone layout passes `sanitizeInput` unchanged |
| `Consistency.MaskedPhoneSurvivesServer` | script.js:29-37 | a phone the browser accepts, once masked, survives sanitising and matches the server's pattern |
| `Consistency.ClientFileCheckMatchesMimeTable` | script.js:70-73 | the browser accepts a file exactly when it is within the size limit and the intended MIME table gives it a listed type |
| `Consistency.ClientAgeIsServerAge` | script.js:106-109 | on the same text, `validarIdade` accepts exactly what the server's age check accepts (api/submit.js:109-110) |
| `Consistency.AgeChecksDisagree` | api/submit.js:69-115 | `20<0` is a valid age in the browser (20), but the server deletes `<`, reads 200 and refuses it |

## Left out

- Network and platform I/O are outcomes or parameters, not models:
  - the `googleapis` client and authentication;
  - `SpreadsheetApp`, `DriveApp`, `MailApp` and `Utilities.base64Decode`;
  - `fetch` and `FileReader` in the browser.
- CORS and security headers (api/submit.js:21-53) have no effect on the verdict.
- The environment-variable checks (api/submit.js:117-134) are the one `configured` flag. `JSON.parse` of a missing key also ends in 500, which that flag covers too.
- The payload size check (api/submit.js:13-18) takes the byte count of the serialised body as an input. `JSON.stringify` and `Blob` are not modelled.
- Timestamp formatting with `toLocaleString`, and `Date.now` / `getTime`, are opaque string or integer parameters.
- Request bodies are objects of optional strings. `sanitizeInput`'s pass-through of non-string values (api/submit.js:5) is the missing-field case only. Coercion of numbers, arrays and objects is not modelled.
- In script.js, the DOM wiring is not modelled:
  - smooth scrolling, step switching, animations, border colouring and the character counter;
  - the submit listener's own checks (lines 114-147), which become one `formValid` flag per submission, and the `fetch` to the endpoint (line 175).
  The rate limiter is the function `podeEnviar` computes, with `now` passed in. Both submit listeners see every submission, and neither can stop the other; that is modelled, see Findings.
- In the Apps Script file, `doGet`, `configurarPlanilha`, `criarPastaDrive` and the e-mail body text are setup or display code with no logic to state.
- AppsScript.DriveRequestFor: the request carries the intended type from `AppsScript.MimeType`. For the two inherited keys, the code as written passes the inherited `Object.prototype` member to `Utilities.newBlob` (google-apps-script-upload.js:72); `AppsScript.MimeTypeAsWritten` models that lookup (see Findings).
- SubmitApi.Sanitize: strings are sequences of code points, while `substring(0, 1000)` counts UTF-16 code units. The two lengths differ only for characters outside the Basic Multilingual Plane. The name and e-mail length checks count UTF-16 code units through `JsText.Utf16Length`.
- AppsScript.SafeCandidateName: a character outside the Basic Multilingual Plane is one `_` here, where the JavaScript replacement writes two (one per UTF-16 code unit).
- ClientForm.CheckSelectedFile, AppsScript.MimeType and SubmitApi.CandidateRow model `toLowerCase` as ASCII lower-casing. This is exact for the e-mail stored in the row, which the server pattern restricts to ASCII. It is also exact for membership in `pdf`, `doc`, `docx`: no non-ASCII letter lower-cases to those letters.
- JsNumber.ParseIntOfDecimal: numbers are exact integers, while `parseInt` rounds very long digit runs to the nearest double. That rounding changes neither the 16–99 verdict nor the value stored for an accepted age.

## Findings

| source | as written | input that shows it | evidently intended | confidence | as-written member | corrected member |
|---|---|---|---|---|---|---|
| google-apps-script-upload.js:107 | `mimeTypes[extensao]` also reads members inherited from `Object.prototype`. The lower-case keys `constructor` and `__proto__` give a truthy object, which is returned in place of `application/octet-stream` | a résumé named `cv.constructor` | every extension other than `pdf`, `doc`, `docx` maps to `application/octet-stream` | not executed | `AppsScript.MimeTypeAsWrittenLeaksPrototype` | `AppsScript.MimeType` |
| script.js:308-316 | The rate-limit listener's only response to a refusal is `preventDefault`. That cannot stop the separate submit listener (lines 114-157), which never consults `podeEnviar` and schedules the send with `setTimeout` (lines 153-156), so `podeEnviar` never stops a send. It also records the time of submissions that the form's own checks refused | two valid submissions 1 ms apart | a valid submission is sent only when 30 s have passed since the last send | not executed | `ClientForm.SubmitRunAsWrittenIgnoresInterval` | `ClientForm.SubmitRunGuarded` |

=== FILE: apps_script.dfy ===
/**
 * The Google Apps Script web app (`google-apps-script-upload.js`): the
 * extension-to-MIME table, the data-URL prefix strip and unique Drive file
 * name built before a résumé is saved, the six-cell sheet row, and the
 * `doPost` order validate, save file, write row, send e-mail. Drive,
 * Sheets and Mail are reduced to the outcomes they report.
 */
module AppsScript {
  import opened JsText
  import opened JsNumber

  const PdfMime := "application/pdf"
  const DocMime := "application/msword"
  const DocxMime := "application/vnd.openxmlformats-officedocument.wordprocessingml.document"
  const OctetStream := "application/octet-stream"

  /** `nomeArquivo.split('.').pop().toLowerCase()`. */
  function Extension(fileName: string): string {
    ToLowerAscii(LastSegment(fileName, '.'))
  }

  /**
   * `fileName` ends in `.` followed by `ext` in any letter case, or is `ext`
   * itself in any letter case.
   */
  predicate HasExtension(fileName: string, ext: string) {
    || (|fileName| > |ext| && fileName[|fileName| - |ext| - 1] == '.'
        && ToLowerAscii(fileName[|fileName| - |ext|..]) == ext)
    || ToLowerAscii(fileName) == ext
  }

  lemma LowerKeepsDots(s: string)
    ensures forall i :: 0 <= i < |s| ==> (ToLowerAscii(s)[i] == '.' <==> s[i] == '.')
  {
  }

  /**
   * The split-based extension agrees with a plain suffix test: the
   * lower-cased text after the last `.` is `ext` exactly when the name ends
   * in `.ext` (any case) or is `ext` (any case).
   */
  lemma ExtensionIsSuffix(fileName: string, ext: string)
    requires '.' !in ext
    ensures Extension(fileName) == ext <==> HasExtension(fileName, ext)
  {
    if Extension(fileName) == ext {
      ExtensionGivesSuffix(fileName, ext);
    }
    if HasExtension(fileName, ext) {
      SuffixGivesExtension(fileName, ext);
    }
  }

  lemma ExtensionGivesSuffix(fileName: string, ext: string)
    requires Extension(fileName) == ext
    ensures HasExtension(fileName, ext)
  {
    var r := LastSegment(fileName, '.');
    assert ToLowerAscii(r) == ext;
    if |r| < |fileName| {
      assert fileName[|fileName| - |ext|..] == r;
    } else {
      assert r == fileName;
    }
  }

  lemma SuffixGivesExtension(fileName: string, ext: string)
    requires '.' !in ext
    requires HasExtension(fileName, ext)
    ensures Extension(fileName) == ext
  {
    if ToLowerAscii(fileName) == ext {
      LowerOfDotFree(fileName, ext);
      SplitWithoutSeparator(fileName, '.');
    } else {
      var k := |fileName| - |ext|;
      var x := fileName[k..];
      LowerOfDotFree(x, ext);
      assert fileName == fileName[..k - 1] + "." + x;
      LastSegmentAfter(fileName[..k - 1], x, '.');
    }
  }

  /** Lower-casing keeps dots, so text lower-casing to a dot-free `ext` is dot-free. */
  lemma LowerOfDotFree(x: string, ext: string)
    requires '.' !in ext && ToLowerAscii(x) == ext
    ensures '.' !in x
  {
    LowerKeepsDots(x);
    forall i | 0 <= i < |x| ensures x[i] != '.' {
      assert ToLowerAscii(x)[i] == ext[i];
    }
  }

  /** The own entries of the `mimeTypes` object literal. */
  function MimeTableEntry(ext: string): Option<string> {
    if ext == "pdf" then Some(PdfMime)
    else if ext == "doc" then Some(DocMime)
    else if ext == "docx" then Some(DocxMime)
    else None
  }

  /**
   * `getMimeType` as evidently intended: the listed type for a `pdf`, `doc`
   * or `docx` extension in any letter case, and `application/octet-stream`
   * for every other name.
   */
  function MimeType(fileName: string): (r: string)
    ensures r == PdfMime <==> HasExtension(fileName, "pdf")
    ensures r == DocMime <==> HasExtension(fileName, "doc")
    ensures r == DocxMime <==> HasExtension(fileName, "docx")
    ensures r == OctetStream <==>
      !HasExtension(fileName, "pdf") && !HasExtension(fileName, "doc") && !HasExtension(fileName, "docx")
  {
    ExtensionIsSuffix(fileName, "pdf");
    ExtensionIsSuffix(fileName, "doc");
    ExtensionIsSuffix(fileName, "docx");
    match MimeTableEntry(Extension(fileName))
    case Some(t) => t
    case None => OctetStream
  }

  /** Only the lower-cased last extension matters. */
  lemma MimeTypeDependsOnExtensionOnly(a: string, b: string)
    requires Extension(a) == Extension(b)
    ensures MimeType(a) == MimeType(b)
  {
  }

  /** What reading `mimeTypes[key]` yields in JavaScript. */
  datatype Lookup = Undefined | OwnValue(text: string) | InheritedMember(key: string)

  /**
   * The keys an object literal inherits from `Object.prototype` that are
   * entirely lower case; after `toLowerCase` no other inherited key can be
   * hit.
   */
  const InheritedLowerCaseKeys: set<string> := {"constructor", "__proto__"}

  /** Property lookup on the `mimeTypes` literal, prototype chain included. */
  function MimeTableLookup(ext: string): Lookup {
    match MimeTableEntry(ext)
    case Some(t) => OwnValue(t)
    case None => if ext in InheritedLowerCaseKeys then InheritedMember(ext) else Undefined
  }

  /**
   * `getMimeType` as written: `mimeTypes[extensao] || 'application/octet-stream'`.
   * The inherited members are truthy, so they are returned in place of the
   * default.
   */
  function MimeTypeAsWritten(fileName: string): (r: Lookup)
    ensures r != Undefined
  {
    match MimeTableLookup(Extension(fileName))
    case Undefined => OwnValue(OctetStream)
    case v => v
  }

  /** A résumé named `cv.constructor` gets the `Object` constructor, not a MIME type string. */
  lemma MimeTypeAsWrittenLeaksPrototype()
    ensures MimeTypeAsWritten("cv.constructor") == InheritedMember("constructor")
  {
    ConstructorExtension();
    assert MimeTableEntry("constructor").None?;
  }

  lemma ConstructorExtension()
    ensures Extension("cv.constructor") == "constructor"
  {
    LastSegmentAfter("cv", "constructor", '.');
    assert "cv" + ['.'] + "constructor" == "cv.constructor";
    LowerOfLower("constructor");
  }

  /** Away from the two inherited keys the written lookup and the intended table agree. */
  lemma MimeTypeAsWrittenElsewhere(fileName: string)
    requires Extension(fileName) !in InheritedLowerCaseKeys
    ensures MimeTypeAsWritten(fileName) == OwnValue(MimeType(fileName))
  {
  }

  /**
   * `base64Data.split(',')[1] || base64Data`: the text between the first
   * comma and the next one (or the end), unless that text is empty or there
   * is no comma, in which case the input is kept whole.
   */
  function StripDataUrlPrefix(data: string): (r: string)
    ensures r == data || (r != "" && ',' !in r)
  {
    var parts := Split(data, ',');
    if |parts| >= 2 && parts[1] != "" then parts[1] else data
  }

  /**
   * When the prefix strip changes its input, the result is the text between
   * the first comma and the next comma (or the end).
   */
  lemma StripTakesFirstPiece(data: string)
    ensures var r := StripDataUrlPrefix(data);
      r == data || (
        && ',' in data
        && var i := IndexOf(data, ',') + 1;
        && i + |r| <= |data| && data[i..i + |r|] == r
        && (i + |r| == |data| || data[i + |r|] == ','))
  {
    if ',' in data {
      var k := IndexOf(data, ',');
      var prefix, after := data[..k], data[k + 1..];
      assert data == prefix + [','] + after;
      var body, tail := FirstPiece(after);
      StripOfParts(data, prefix, body, tail);
    } else {
      StripWithoutComma(data);
    }
  }

  /** Splits `t` at its first comma: the comma-free text before it, and the rest from the comma on. */
  lemma FirstPiece(t: string) returns (body: string, tail: string)
    ensures t == body + tail && ',' !in body && (tail == "" || tail[0] == ',')
  {
    if ',' in t {
      var j := IndexOf(t, ',');
      body, tail := t[..j], t[j..];
      assert t == body + tail;
    } else {
      body, tail := t, "";
      assert t == body + tail;
    }
  }

  /** The strip of `prefix,body` followed by nothing or a comma, located by the first comma. */
  lemma StripOfParts(data: string, prefix: string, body: string, tail: string)
    requires ',' !in prefix && ',' !in body
    requires tail == "" || tail[0] == ','
    requires data == prefix + [','] + (body + tail)
    ensures var r := StripDataUrlPrefix(data);
      r == data || (
        && ',' in data
        && var i := IndexOf(data, ',') + 1;
        && i + |r| <= |data| && data[i..i + |r|] == r
        && (i + |r| == |data| || data[i + |r|] == ','))
  {
    assert data == prefix + "," + body + tail;
    StripAfterFirstComma(prefix, body, tail);
    IndexOfAfterFree(prefix, body + tail, ',');
    var i := |prefix| + 1;
    assert data[i..] == body + tail;
    assert data[i..i + |body|] == body;
    if tail != "" {
      assert data[i + |body|] == tail[0];
    }
  }

  /** Input without a comma is returned unchanged. */
  lemma StripWithoutComma(data: string)
    requires ',' !in data
    ensures StripDataUrlPrefix(data) == data
  {
    SplitWithoutSeparator(data, ',');
  }

  /**
   * For `prefix,body` followed by nothing or by another comma: the result is
   * `body` when it is non-empty, and the whole input otherwise.
   */
  lemma StripAfterFirstComma(prefix: string, body: string, tail: string)
    requires ',' !in prefix && ',' !in body
    requires tail == "" || tail[0] == ','
    ensures var data := prefix + "," + body + tail;
      StripDataUrlPrefix(data) == if body != "" then body else data
  {
    var data := prefix + "," + body + tail;
    assert data == prefix + ([','] + (body + tail));
    SplitFreePrefix(prefix, [','] + (body + tail), ',');
    assert ([','] + (body + tail))[1..] == body + tail;
    assert Split([','] + (body + tail), ',') == [""] + Split(body + tail, ',');
    SplitFreePrefix(body, tail, ',');
    if tail == "" {
      assert Split(tail, ',') == [""];
      assert body + tail == body;
    } else {
      assert tail[1..] == tail[1..];
      assert Split(tail, ',') == [""] + Split(tail[1..], ',');
    }
    assert Split(data, ',')[1] == body;
  }

  /** `[^a-zA-Z0-9]` becomes `_`. */
  function SafeNameChar(c: char): char {
    if IsAsciiAlnum(c) then c else '_'
  }

  /** `nomeCandidato.replace(/[^a-zA-Z0-9]/g, '_')`. */
  function SafeCandidateName(name: string): (r: string)
    ensures |r| == |name|
    ensures forall i :: 0 <= i < |r| ==> IsAsciiAlnum(r[i]) || r[i] == '_'
    ensures forall i :: 0 <= i < |r| ==> IsAsciiAlnum(name[i]) ==> r[i] == name[i]
    ensures forall i :: 0 <= i < |r| ==> !IsAsciiAlnum(name[i]) ==> r[i] == '_'
  {
    seq(|name|, i requires 0 <= i < |name| => SafeNameChar(name[i]))
  }

  /** Sanitising an already sanitised name changes nothing. */
  lemma SafeCandidateNameIdempotent(name: string)
    ensures SafeCandidateName(SafeCandidateName(name)) == SafeCandidateName(name)
  {
  }

  /** The Drive file name: candidate, timestamp and original name joined by `_`. */
  function UniqueFileName(candidate: string, timestamp: int, fileName: string): (r: string)
    ensures |r| > |candidate| + |fileName| + 1
    ensures r[..|candidate|] == SafeCandidateName(candidate)
    ensures r[|candidate|] == '_'
    ensures r[|r| - |fileName|..] == fileName
  {
    SafeCandidateName(candidate) + "_" + SignedDecimal(timestamp) + "_" + fileName
  }

  /** The position of the first `c` in `s`. */
  function IndexOf(s: string, c: char): (i: nat)
    requires c in s
    ensures i < |s| && s[i] == c && c !in s[..i]
  {
    if s[0] == c then 0 else
      var j := IndexOf(s[1..], c);
      assert s[..j + 1] == [s[0]] + s[1..][..j];
      1 + j
  }

  /** In `a + [c] + x` with no `c` in `a`, the first `c` sits right after `a`. */
  lemma {:induction false} IndexOfAfterFree(a: string, x: string, c: char)
    requires c !in a
    ensures c in a + [c] + x && IndexOf(a + [c] + x, c) == |a|
    decreases |a|
  {
    assert (a + [c] + x)[|a|] == c;
    if |a| > 0 {
      assert (a + [c] + x)[1..] == a[1..] + [c] + x;
      IndexOfAfterFree(a[1..], x, c);
    }
  }

  /** `a + "_" + x` determines `a` when `a` has no `_`. */
  lemma UnderscoreSplit(a: string, x: string, b: string, y: string)
    requires '_' !in a && '_' !in b
    requires a + "_" + x == b + "_" + y
    ensures a == b && x == y
  {
    var s := a + "_" + x;
    IndexOfAfterFree(a, x, '_');
    IndexOfAfterFree(b, y, '_');
    assert a == s[..|a|] == b;
    assert x == s[|a| + 1..] == y;
  }

  /**
   * For a fixed candidate and file name, different timestamps give
   * different Drive file names.
   */
  lemma UniqueFileNameInjective(candidate: string, fileName: string, t1: int, t2: int)
    requires UniqueFileName(candidate, t1, fileName) == UniqueFileName(candidate, t2, fileName)
    ensures t1 == t2
  {
    var c := SafeCandidateName(candidate) + "_";
    var d1 := SignedDecimal(t1);
    var d2 := SignedDecimal(t2);
    assert UniqueFileName(candidate, t1, fileName) == c + (d1 + "_" + fileName);
    assert UniqueFileName(candidate, t2, fileName) == c + (d2 + "_" + fileName);
    CancelPrefix(c, d1 + "_" + fileName, d2 + "_" + fileName);
    UnderscoreSplit(d1, fileName, d2, fileName);
    SignedDecimalInjective(t1, t2);
  }

  lemma CancelPrefix(c: string, u: string, v: string)
    requires c + u == c + v
    ensures u == v
  {
    assert u == (c + u)[|c|..];
    assert v == (c + v)[|c|..];
  }

  /** The fields `doPost` reads from the parsed body. */
  datatype PostData = PostData(
    nome: Option<string>,
    email: Option<string>,
    telefone: Option<string>,
    curriculo: Option<string>,
    curriculoNome: Option<string>)

  /** `JSON.parse(e.postData.contents)`: the body, or the error it threw. */
  datatype Payload = Parsed(data: PostData) | Unparseable(error: string)

  predicate RequiredPresent(d: PostData) {
    Present(d.nome) && Present(d.email) && Present(d.telefone)
  }

  predicate WantsFile(d: PostData) {
    Present(d.curriculo) && Present(d.curriculoNome)
  }

  /** What the Drive calls in `salvarArquivoDrive` ended with: the file URL, or the error text. */
  datatype DriveOutcome = Saved(url: string) | DriveFailed(error: string)

  /** What `appendRow` or `sendEmail` ended with. */
  datatype ServiceOutcome = Succeeded | Failed(error: string)

  /** The blob handed to Drive: the base64 text (decoding is not modelled), MIME type and file name. */
  datatype DriveRequest = DriveRequest(base64: string, mimeType: string, name: string)

  /** A call `doPost` makes to an outside service, in the order made. */
  datatype Effect =
    | SaveFile(request: DriveRequest)
    | AppendRow(cells: seq<string>)
    | SendMail(fileUrl: string)

  /** The JSON answer of the web app and the calls made on the way. */
  datatype PostResult = PostResult(status: string, message: string, effects: seq<Effect>)

  const NotSent := "N\U{00E3}o enviado"

  /**
   * The blob `salvarArquivoDrive` builds from the request fields: the data
   * after the data-URL prefix, the type for the file's extension and the
   * unique name.
   */
  function DriveRequestFor(curriculo: string, curriculoNome: string, nome: string, timestamp: int): (q: DriveRequest)
    ensures q.base64 == StripDataUrlPrefix(curriculo)
    ensures q.mimeType == MimeType(curriculoNome)
    ensures q.name == UniqueFileName(nome, timestamp, curriculoNome)
    ensures |q.name| > |curriculoNome| && q.name[|q.name| - |curriculoNome|..] == curriculoNome
  {
    DriveRequest(StripDataUrlPrefix(curriculo), MimeType(curriculoNome),
      UniqueFileName(nome, timestamp, curriculoNome))
  }

  /** `salvarNaPlanilha`'s row: stamp, name, e-mail, phone, file cell, status. */
  function SheetRow(stamp: string, d: PostData, fileUrl: string): (cells: seq<string>)
    ensures |cells| == 6
    ensures cells[4] == NotSent <==> fileUrl == "" || fileUrl == NotSent
    ensures fileUrl != "" ==> cells[4] == fileUrl
    ensures cells[5] == "Novo"
    ensures cells[0] == stamp && cells[1] == OrEmpty(d.nome)
    ensures cells[2] == OrEmpty(d.email) && cells[3] == OrEmpty(d.telefone)
  {
    [stamp, OrEmpty(d.nome), OrEmpty(d.email), OrEmpty(d.telefone),
     if fileUrl != "" then fileUrl else NotSent, "Novo"]
  }

  /** `'Erro ao processar candidatura: ' + error.toString()`. */
  function ErrorResult(errorText: string, effects: seq<Effect>): PostResult {
    PostResult("error", "Erro ao processar candidatura: " + errorText, effects)
  }

  /**
   * The row write, then the e-mail, whose failure is logged and swallowed.
   * `mail` is what `MailApp.sendEmail` did.
   */
  function WriteAndNotify(stamp: string, d: PostData, fileUrl: string, before: seq<Effect>,
                          sheet: ServiceOutcome, mail: ServiceOutcome): (r: PostResult)
    ensures r.status == "success" <==> sheet.Succeeded?
    ensures |r.effects| > |before| && r.effects[|before|] == AppendRow(SheetRow(stamp, d, fileUrl))
    ensures sheet.Succeeded? ==> r.effects[|r.effects| - 1] == SendMail(fileUrl)
    ensures sheet.Failed? ==> |r.effects| == |before| + 1
  {
    var row := SheetRow(stamp, d, fileUrl);
    match sheet
    case Failed(error) => ErrorResult(error, before + [AppendRow(row)])
    case Succeeded =>
      PostResult("success", "Candidatura recebida com sucesso!",
        before + [AppendRow(row), SendMail(fileUrl)])
  }

  /**
   * `doPost`: check the three required fields, save the résumé only when
   * both `curriculo` and `curriculoNome` are given (a Drive failure is
   * rethrown), write the row, then send the e-mail.
   */
  function DoPost(payload: Payload, timestamp: int, stamp: string, drive: DriveOutcome,
                  sheet: ServiceOutcome, mail: ServiceOutcome): (r: PostResult)
    ensures r.status == "success" || r.status == "error"
    ensures r.status == "success" <==>
      && payload.Parsed? && RequiredPresent(payload.data)
      && (WantsFile(payload.data) ==> drive.Saved?)
      && sheet.Succeeded?
    ensures (payload.Unparseable? || !RequiredPresent(payload.data)) ==> r.effects == []
  {
    match payload
    case Unparseable(error) => ErrorResult(error, [])
    case Parsed(d) =>
      if !RequiredPresent(d) then
        ErrorResult("Error: Dados obrigat\U{00F3}rios faltando", [])
      else if WantsFile(d) then
        var request := DriveRequestFor(d.curriculo.value, d.curriculoNome.value, d.nome.value, timestamp);
        match drive
        case DriveFailed(error) =>
          ErrorResult("Error: Falha ao salvar curr\U{00ED}culo: " + error, [SaveFile(request)])
        case Saved(url) =>
          WriteAndNotify(stamp, d, url, [SaveFile(request)], sheet, mail)
      else
        WriteAndNotify(stamp, d, "", [], sheet, mail)
  }

  /** The row write and the e-mail come after `before` and are never file saves. */
  lemma WriteAndNotifyAppends(stamp: string, d: PostData, fileUrl: string, before: seq<Effect>,
                              sheet: ServiceOutcome, mail: ServiceOutcome)
    ensures var r := WriteAndNotify(stamp, d, fileUrl, before, sheet, mail);
      && |before| < |r.effects| <= |before| + 2
      && r.effects[..|before|] == before
      && forall i :: |before| <= i < |r.effects| ==> !r.effects[i].SaveFile?
  {
  }

  /**
   * A file save is attempted exactly when the required fields are present
   * and both file fields are given, and it is then the first call made.
   */
  lemma SaveAttemptedOnlyWithFile(payload: Payload, timestamp: int, stamp: string, drive: DriveOutcome,
                                  sheet: ServiceOutcome, mail: ServiceOutcome)
    ensures var r := DoPost(payload, timestamp, stamp, drive, sheet, mail);
      (|r.effects| > 0 && r.effects[0].SaveFile?) <==>
        payload.Parsed? && RequiredPresent(payload.data) && WantsFile(payload.data)
    ensures var r := DoPost(payload, timestamp, stamp, drive, sheet, mail);
      forall i :: 0 < i < |r.effects| ==> !r.effects[i].SaveFile?
  {
    FirstEffectIsSave(payload, timestamp, stamp, drive, sheet, mail);
    NoLaterSave(payload, timestamp, stamp, drive, sheet, mail);
  }

  lemma FirstEffectIsSave(payload: Payload, timestamp: int, stamp: string, drive: DriveOutcome,
                          sheet: ServiceOutcome, mail: ServiceOutcome)
    ensures var r := DoPost(payload, timestamp, stamp, drive, sheet, mail);
      (|r.effects| > 0 && r.effects[0].SaveFile?) <==>
        payload.Parsed? && RequiredPresent(payload.data) && WantsFile(payload.data)
  {
    if payload.Parsed? && RequiredPresent(payload.data) {
      var d := payload.data;
      if WantsFile(d) {
        var request := DriveRequestFor(d.curriculo.value, d.curriculoNome.value, d.nome.value, timestamp);
        if drive.Saved? {
          assert DoPost(payload, timestamp, stamp, drive, sheet, mail)
              == WriteAndNotify(stamp, d, drive.url, [SaveFile(request)], sheet, mail);
          WriteAndNotifyAppends(stamp, d, drive.url, [SaveFile(request)], sheet, mail);
        }
      } else {
        assert DoPost(payload, timestamp, stamp, drive, sheet, mail) == WriteAndNotify(stamp, d, "", [], sheet, mail);
        WriteAndNotifyAppends(stamp, d, "", [], sheet, mail);
      }
    }
  }

  lemma NoLaterSave(payload: Payload, timestamp: int, stamp: string, drive: DriveOutcome,
                    sheet: ServiceOutcome, mail: ServiceOutcome)
    ensures var r := DoPost(payload, timestamp, stamp, drive, sheet, mail);
      forall i :: 0 < i < |r.effects| ==> !r.effects[i].SaveFile?
  {
    if payload.Parsed? && RequiredPresent(payload.data) {
      var d := payload.data;
      if WantsFile(d) {
        var request := DriveRequestFor(d.curriculo.value, d.curriculoNome.value, d.nome.value, timestamp);
        if drive.Saved? {
          assert DoPost(payload, timestamp, stamp, drive, sheet, mail)
              == WriteAndNotify(stamp, d, drive.url, [SaveFile(request)], sheet, mail);
          WriteAndNotifyAppends(stamp, d, drive.url, [SaveFile(request)], sheet, mail);
        }
      } else {
        assert DoPost(payload, timestamp, stamp, drive, sheet, mail) == WriteAndNotify(stamp, d, "", [], sheet, mail);
        WriteAndNotifyAppends(stamp, d, "", [], sheet, mail);
      }
    }
  }

  /**
   * A Drive failure is rethrown: the answer is an error and no row is
   * written and no e-mail sent.
   */
  lemma DriveFailureWritesNoRow(d: PostData, timestamp: int, stamp: string, error: string,
                                sheet: ServiceOutcome, mail: ServiceOutcome)
    requires RequiredPresent(d) && WantsFile(d)
    ensures var r := DoPost(Parsed(d), timestamp, stamp, DriveFailed(error), sheet, mail);
      && r.status == "error"
      && r.effects == [SaveFile(DriveRequestFor(d.curriculo.value, d.curriculoNome.value, d.nome.value, timestamp))]
  {
  }

  /**
   * A failed row write is rethrown: the answer is an error, the row write
   * is the last call and no e-mail is sent.
   */
  lemma SheetFailureSendsNoMail(d: PostData, timestamp: int, stamp: string, drive: DriveOutcome,
                                error: string, mail: ServiceOutcome)
    requires RequiredPresent(d) && (WantsFile(d) ==> drive.Saved?)
    ensures var url := if WantsFile(d) then drive.url else "";
      var save := if WantsFile(d)
        then [SaveFile(DriveRequestFor(d.curriculo.value, d.curriculoNome.value, d.nome.value, timestamp))]
        else [];
      var r := DoPost(Parsed(d), timestamp, stamp, drive, Failed(error), mail);
      && r.status == "error"
      && r.effects == save + [AppendRow(SheetRow(stamp, d, url))]
  {
    if WantsFile(d) {
      var request := DriveRequestFor(d.curriculo.value, d.curriculoNome.value, d.nome.value, timestamp);
      assert DoPost(Parsed(d), timestamp, stamp, drive, Failed(error), mail)
          == WriteAndNotify(stamp, d, drive.url, [SaveFile(request)], Failed(error), mail);
    } else {
      assert DoPost(Parsed(d), timestamp, stamp, drive, Failed(error), mail)
          == WriteAndNotify(stamp, d, "", [], Failed(error), mail);
    }
  }

  /** The e-mail outcome never changes the answer or the calls made. */
  lemma MailFailureIgnored(payload: Payload, timestamp: int, stamp: string, drive: DriveOutcome,
                           sheet: ServiceOutcome, error: string)
    ensures DoPost(payload, timestamp, stamp, drive, sheet, Failed(error))
         == DoPost(payload, timestamp, stamp, drive, sheet, Succeeded)
  {
  }

  /**
   * On success the calls are, in order: the optional file save, the row
   * write, the e-mail; the row's file cell is the saved URL, or `Não enviado`
   * when no file was given.
   */
  lemma SuccessOrder(payload: Payload, timestamp: int, stamp: string, drive: DriveOutcome,
                     sheet: ServiceOutcome, mail: ServiceOutcome)
    requires DoPost(payload, timestamp, stamp, drive, sheet, mail).status == "success"
    ensures var r := DoPost(payload, timestamp, stamp, drive, sheet, mail);
      var d := payload.data;
      var n := |r.effects|;
      && n == (if WantsFile(d) then 3 else 2)
      && r.effects[n - 2].AppendRow? && r.effects[n - 1].SendMail?
      && r.effects[n - 2].cells[4] == (if WantsFile(d) && drive.url != "" then drive.url else NotSent)
      && r.effects[n - 2].cells[1] == d.nome.value
  {
  }

  /**
   * The calls of a successful request, in full: the save of the blob built
   * from the request when a file was given, the append of the row built from
   * the data and the saved URL (`''` without a file), and the e-mail with
   * that URL.
   */
  lemma SuccessEffects(payload: Payload, timestamp: int, stamp: string, drive: DriveOutcome,
                       sheet: ServiceOutcome, mail: ServiceOutcome)
    requires DoPost(payload, timestamp, stamp, drive, sheet, mail).status == "success"
    ensures var d := payload.data;
      var url := if WantsFile(d) then drive.url else "";
      var save := if WantsFile(d)
        then [SaveFile(DriveRequestFor(d.curriculo.value, d.curriculoNome.value, d.nome.value, timestamp))]
        else [];
      DoPost(payload, timestamp, stamp, drive, sheet, mail).effects
        == save + [AppendRow(SheetRow(stamp, d, url)), SendMail(url)]
  {
    var d := payload.data;
    if WantsFile(d) {
      var request := DriveRequestFor(d.curriculo.value, d.curriculoNome.value, d.nome.value, timestamp);
      assert DoPost(payload, timestamp, stamp, drive, sheet, mail)
          == WriteAndNotify(stamp, d, drive.url, [SaveFile(request)], sheet, mail);
    } else {
      assert DoPost(payload, timestamp, stamp, drive, sheet, mail) == WriteAndNotify(stamp, d, "", [], sheet, mail);
    }
  }
}

=== FILE: client_form.dfy ===
/**
 * The pure helpers of the landing page script (`script.js`): the phone
 * input mask, the three field validators, the résumé file check run when a
 * file is chosen, and the 30-second resubmission guard, with the clock
 * reading passed in as `now`.
 */
module ClientForm {
  import opened JsText
  import opened JsNumber

  /** `s.replace(/\D/g, '')`: the ASCII digits of `s`, in order. */
  function DigitsOf(s: string): (r: string)
    ensures |r| <= |s|
    ensures AllDigits(r)
  {
    if |s| == 0 then []
    else (if IsAsciiDigit(s[0]) then [s[0]] else []) + DigitsOf(s[1..])
  }

  lemma {:induction false} DigitsOfConcat(a: string, b: string)
    ensures DigitsOf(a + b) == DigitsOf(a) + DigitsOf(b)
    decreases |a|
  {
    if |a| > 0 {
      assert (a + b)[1..] == a[1..] + b;
      DigitsOfConcat(a[1..], b);
    } else {
      assert a + b == b;
    }
  }

  lemma {:induction false} DigitsOfDigits(d: string)
    requires AllDigits(d)
    ensures DigitsOf(d) == d
    decreases |d|
  {
    if |d| > 0 {
      DigitsOfDigits(d[1..]);
      assert d == [d[0]] + d[1..];
    }
  }

  lemma {:induction false} DigitsOfNonDigits(s: string)
    requires forall i :: 0 <= i < |s| ==> !IsAsciiDigit(s[i])
    ensures DigitsOf(s) == []
    decreases |s|
  {
    if |s| > 0 {
      DigitsOfNonDigits(s[1..]);
    }
  }

  /** Appending digits appends them to the digits kept. */
  lemma DigitsAppendDigits(x: string, y: string)
    requires AllDigits(y)
    ensures DigitsOf(x + y) == DigitsOf(x) + y
  {
    DigitsOfConcat(x, y);
    DigitsOfDigits(y);
  }

  /** Appending text without digits keeps the same digits. */
  lemma DigitsAppendNonDigits(x: string, y: string)
    requires forall i :: 0 <= i < |y| ==> !IsAsciiDigit(y[i])
    ensures DigitsOf(x + y) == DigitsOf(x)
  {
    DigitsOfConcat(x, y);
    DigitsOfNonDigits(y);
    assert DigitsOf(x) + [] == DigitsOf(x);
  }

  /** `v` holds a run of `width` digits starting at `i`. */
  predicate DigitRunAt(v: string, i: nat, width: nat) {
    i + width <= |v| && AllDigits(v[i..i + width])
  }

  /** Where an unanchored `\d{width}` first matches in `v`, searching from `from`. */
  function FirstDigitRun(v: string, width: nat, from: nat): (r: Option<nat>)
    ensures r.Some? ==> from <= r.value && DigitRunAt(v, r.value, width)
    ensures r.Some? ==> forall i :: from <= i < r.value ==> !DigitRunAt(v, i, width)
    ensures r.None? ==> forall i :: from <= i ==> !DigitRunAt(v, i, width)
    decreases |v| + 1 - from
  {
    if from + width > |v| then None
    else if DigitRunAt(v, from, width) then Some(from)
    else FirstDigitRun(v, width, from + 1)
  }

  /** In a string of digits the first run of `width` digits starts at 0, if there is room for one. */
  lemma FirstDigitRunInDigits(v: string, width: nat)
    requires AllDigits(v)
    ensures FirstDigitRun(v, width, 0) == if width <= |v| then Some(0) else None
  {
    if width <= |v| {
      assert DigitRunAt(v, 0, width);
    }
  }

  /** The replacement text `'($1) $2-$3'`. */
  function PhoneLayout(g1: string, g2: string, g3: string): string {
    "(" + g1 + ") " + g2 + "-" + g3
  }

  /**
   * `v.replace(/(\d{a})(\d{b})(\d{c})/, '($1) $2-$3')`: the pattern has no
   * `g` flag, so only its first match is rewritten and the rest is kept.
   */
  function ReplaceFirstGroups(v: string, a: nat, b: nat, c: nat): string {
    match FirstDigitRun(v, a + b + c, 0)
    case None => v
    case Some(i) =>
      v[..i] + PhoneLayout(v[i..i + a], v[i + a..i + a + b], v[i + a + b..i + a + b + c]) + v[i + a + b + c..]
  }

  /** `aplicarMascaraTelefone`: keep the digits, then lay out the first 10 or 11 of them. */
  function MaskPhone(s: string): string {
    var v := DigitsOf(s);
    if |v| <= 10 then ReplaceFirstGroups(v, 2, 4, 4) else ReplaceFirstGroups(v, 2, 5, 4)
  }

  /** On a digit string with room for the groups, the first match starts at 0. */
  lemma ReplaceInDigits(v: string, a: nat, b: nat, c: nat)
    requires AllDigits(v) && a + b + c <= |v|
    ensures ReplaceFirstGroups(v, a, b, c) ==
      PhoneLayout(v[..a], v[a..a + b], v[a + b..a + b + c]) + v[a + b + c..]
  {
    FirstDigitRunInDigits(v, a + b + c);
    assert v[..0] == [];
    assert v[0..a] == v[..a];
    assert v[0 + a..0 + a + b] == v[a..a + b];
    assert v[0 + a + b..0 + a + b + c] == v[a + b..a + b + c];
    assert v[0 + a + b + c..] == v[a + b + c..];
  }

  /** A digit string too short for the groups is left as it is. */
  lemma ReplaceInShortDigits(v: string, a: nat, b: nat, c: nat)
    requires AllDigits(v) && |v| < a + b + c
    ensures ReplaceFirstGroups(v, a, b, c) == v
  {
    FirstDigitRunInDigits(v, a + b + c);
  }

  /**
   * What the mask produces, by number of digits: fewer than 10 stay bare,
   * 10 become `(DD) DDDD-DDDD`, 11 become `(DD) DDDDD-DDDD`, and from 12 on
   * the first 11 are laid out and the rest follow unformatted.
   */
  lemma MaskByDigitCount(s: string)
    ensures var v := DigitsOf(s);
      && (|v| < 10 ==> MaskPhone(s) == v)
      && (|v| == 10 ==> MaskPhone(s) == PhoneLayout(v[..2], v[2..6], v[6..]))
      && (|v| >= 11 ==> MaskPhone(s) == PhoneLayout(v[..2], v[2..7], v[7..11]) + v[11..])
  {
    var v := DigitsOf(s);
    if |v| < 10 {
      ReplaceInShortDigits(v, 2, 4, 4);
    } else if |v| == 10 {
      ReplaceInDigits(v, 2, 4, 4);
      assert v[6..10] == v[6..];
      var m := PhoneLayout(v[..2], v[2..6], v[6..]);
      assert m + v[10..] == m;
    } else {
      ReplaceInDigits(v, 2, 5, 4);
    }
  }

  /** The layout adds only `(`, `) ` and `-`, none of them a digit. */
  lemma DigitsOfLayout(g1: string, g2: string, g3: string, tail: string)
    requires AllDigits(g1) && AllDigits(g2) && AllDigits(g3) && AllDigits(tail)
    ensures DigitsOf(PhoneLayout(g1, g2, g3) + tail) == g1 + g2 + g3 + tail
  {
    DigitsOfNonDigits("(");
    DigitsOfNonDigits(") ");
    DigitsOfNonDigits("-");
    DigitsOfDigits(g1);
    DigitsOfDigits(g2);
    DigitsOfDigits(g3);
    DigitsOfDigits(tail);
    var x1 := "(" + g1;
    DigitsOfConcat("(", g1);
    assert DigitsOf(x1) == g1;
    var x2 := x1 + ") ";
    DigitsOfConcat(x1, ") ");
    assert DigitsOf(x2) == g1;
    var x3 := x2 + g2;
    DigitsOfConcat(x2, g2);
    var x4 := x3 + "-";
    DigitsOfConcat(x3, "-");
    assert DigitsOf(x4) == g1 + g2;
    var x5 := x4 + g3;
    DigitsOfConcat(x4, g3);
    assert x5 == PhoneLayout(g1, g2, g3);
    DigitsOfConcat(x5, tail);
  }

  /** Laying out the first groups of a digit string keeps its digits. */
  lemma DigitsOfReplace(v: string, a: nat, b: nat, c: nat)
    requires AllDigits(v)
    ensures DigitsOf(ReplaceFirstGroups(v, a, b, c)) == v
  {
    if a + b + c <= |v| {
      ReplaceInDigits(v, a, b, c);
      var g1, g2, g3, tail := v[..a], v[a..a + b], v[a + b..a + b + c], v[a + b + c..];
      assert AllDigits(g1) && AllDigits(g2) && AllDigits(g3) && AllDigits(tail);
      DigitsOfLayout(g1, g2, g3, tail);
      assert g1 + g2 + g3 + tail == v;
    } else {
      ReplaceInShortDigits(v, a, b, c);
      DigitsOfDigits(v);
    }
  }

  /** The mask never adds, drops or reorders a digit. */
  lemma MaskKeepsDigits(s: string)
    ensures DigitsOf(MaskPhone(s)) == DigitsOf(s)
  {
    var v := DigitsOf(s);
    if |v| <= 10 {
      DigitsOfReplace(v, 2, 4, 4);
    } else {
      DigitsOfReplace(v, 2, 5, 4);
    }
  }

  /** Masking what is already masked changes nothing. */
  lemma MaskIdempotent(s: string)
    ensures MaskPhone(MaskPhone(s)) == MaskPhone(s)
  {
    MaskKeepsDigits(s);
  }

  /** `[^\s@]`: any character but white space and `@`. */
  predicate IsEmailPartChar(c: char) {
    !IsJsWhitespace(c) && c != '@'
  }

  /** The client's split of an address around its `@` and a later `.`. */
  predicate ClientEmailSplit(s: string, at: nat, dot: nat) {
    && 1 <= at && at + 2 <= dot && dot + 2 <= |s|
    && s[at] == '@' && s[dot] == '.'
    && (forall i :: 0 <= i < at ==> IsEmailPartChar(s[i]))
    && (forall i :: at < i < dot ==> IsEmailPartChar(s[i]))
    && (forall i :: dot < i < |s| ==> IsEmailPartChar(s[i]))
  }

  /** `validarEmail`: `/^[^\s@]+@[^\s@]+\.[^\s@]+$/.test(s)`. */
  predicate ValidEmail(s: string) {
    exists at: nat, dot: nat | at < dot < |s| :: ClientEmailSplit(s, at, dot)
  }

  /** `validarTelefone`: 10 or 11 digits, whatever else surrounds them. */
  predicate ValidPhone(s: string) {
    |DigitsOf(s)| == 10 || |DigitsOf(s)| == 11
  }

  const ClientMinAge := 16
  const ClientMaxAge := 99

  /** `validarIdade`: `parseInt` gives a number, and it is at least 16 and at most 99. */
  predicate ValidAge(s: string) {
    match ParseInt(s)
    case None => false
    case Some(n) => n >= ClientMinAge && n <= ClientMaxAge
  }

  /** `validarEmail` accepts exactly the addresses with such a split. */
  lemma ValidEmailWitness(s: string, at: nat, dot: nat)
    requires ClientEmailSplit(s, at, dot)
    ensures ValidEmail(s)
  {
  }

  /** An address needs its `@` before a later `.` with text on every side. */
  lemma ValidEmailRejects()
    ensures !ValidEmail("not-an-email")
    ensures !ValidEmail("a@b")
  {
    var s := "not-an-email";
    assert forall i :: 0 <= i < |s| ==> s[i] != '@';
    var t := "a@b";
    assert forall i :: 0 <= i < |t| ==> t[i] != '.';
  }

  /** `parseInt` stops at the first non-digit, so `25 anos` is a valid age. */
  lemma ValidAgeIgnoresTrailingText()
    ensures ValidAge("25 anos")
  {
    assert Decimal(2) == "2";
    assert Decimal(25) == "25";
    assert "25" + " anos" == "25 anos";
    ValidAgeOfDecimalThen(25, " anos");
  }

  /** A decimal age from 16 to 99 followed by any non-digit text is valid. */
  lemma ValidAgeOfDecimalThen(n: nat, rest: string)
    requires 16 <= n <= 99
    requires rest == [] || !IsAsciiDigit(rest[0])
    ensures ValidAge(Decimal(n) + rest)
  {
    ParseIntOfDecimalThen(n, rest);
  }

  /** `parseInt` honours a `0x` prefix, so `0x10` is the valid age 16. */
  lemma ValidAgeHex()
    ensures ValidAge("0x10")
  {
    ParseIntHexSixteen();
  }

  /** 15 is below the minimum age. */
  lemma ValidAgeTooYoung()
    ensures !ValidAge("15")
  {
    assert Decimal(1) == "1";
    assert Decimal(15) == "15";
    ParseIntOfBareDecimal(15);
  }

  const MaxFileSize := 5 * 1024 * 1024

  /** The verdict of the file input's `change` handler on the chosen file. */
  datatype FileCheck = FileAccepted | FileTooLarge | FileTypeNotAllowed

  /** `'.' + name.split('.').pop().toLowerCase()`. */
  function SelectedExtension(name: string): string {
    "." + ToLowerAscii(LastSegment(name, '.'))
  }

  /** The size check first, then the extension against `.pdf`, `.doc`, `.docx`. */
  function CheckSelectedFile(name: string, size: nat): (r: FileCheck)
    ensures r == FileTooLarge <==> size > MaxFileSize
    ensures r == FileAccepted <==>
      size <= MaxFileSize && ToLowerAscii(LastSegment(name, '.')) in {"pdf", "doc", "docx"}
  {
    var ext := ToLowerAscii(LastSegment(name, '.'));
    assert SelectedExtension(name) == "." + ext;
    assert ("." + ext)[1..] == ext;
    assert ".pdf" == "." + "pdf" && ".doc" == "." + "doc" && ".docx" == "." + "docx";
    if size > MaxFileSize then FileTooLarge
    else if SelectedExtension(name) in [".pdf", ".doc", ".docx"] then FileAccepted
    else FileTypeNotAllowed
  }

  /** Letter case does not matter: `CV.PDF` is accepted. */
  lemma UpperCaseExtensionAccepted()
    ensures CheckSelectedFile("CV.PDF", 1000) == FileAccepted
  {
    LastSegmentAfter("CV", "PDF", '.');
    assert "CV" + "." + "PDF" == "CV.PDF";
    assert ToLowerAscii("PDF") == "pdf";
  }

  /** Only the text after the last `.` counts: `cv.pdf.exe` is refused. */
  lemma LastExtensionDecides()
    ensures CheckSelectedFile("cv.pdf.exe", 1000) == FileTypeNotAllowed
  {
    LastSegmentAfter("cv.pdf", "exe", '.');
    assert "cv.pdf" + "." + "exe" == "cv.pdf.exe";
    assert ToLowerAscii("exe") == "exe";
  }

  /** A name with no `.` is its own extension: a file called `pdf` is accepted. */
  lemma DotlessNameAccepted()
    ensures CheckSelectedFile("pdf", 1000) == FileAccepted
  {
    SplitWithoutSeparator("pdf", '.');
    assert ToLowerAscii("pdf") == "pdf";
  }

  /** The resubmission guard's interval in milliseconds. */
  const MinInterval := 30000

  /** The guard's one variable, the time of the last accepted submission. */
  datatype RateLimiter = RateLimiter(lastSend: int)

  /** The guard starts as if the last submission happened at time 0. */
  const InitialLimiter := RateLimiter(0)

  datatype Decision = Allow | Wait(seconds: int)

  datatype Attempt = Attempt(decision: Decision, next: RateLimiter)

  /**
   * `podeEnviar` at time `now`: refuse while less than 30 s have passed,
   * reporting `Math.ceil` of the remaining seconds; otherwise record `now`.
   */
  function CanSend(st: RateLimiter, now: int): (a: Attempt)
    ensures a.decision.Allow? <==> now - st.lastSend >= MinInterval
    ensures a.decision.Allow? ==> a.next == RateLimiter(now)
    ensures a.decision.Wait? ==> a.next == st
    ensures a.decision.Wait? ==>
      var remaining := MinInterval - (now - st.lastSend);
      (a.decision.seconds - 1) * 1000 < remaining <= a.decision.seconds * 1000
    ensures a.decision.Wait? && now >= st.lastSend ==> 1 <= a.decision.seconds <= 30
  {
    var elapsed := now - st.lastSend;
    if elapsed < MinInterval then
      Attempt(Wait((MinInterval - elapsed + 999) / 1000), st)
    else
      Attempt(Allow, RateLimiter(now))
  }

  /** The accepted submissions of a run of attempts, and the guard's state after it. */
  datatype Trace = Trace(sent: seq<int>, final: RateLimiter)

  /** Feeds attempts at the given times through the guard, in order. */
  function Run(st: RateLimiter, times: seq<int>): (t: Trace)
    ensures |t.sent| <= |times|
    decreases |times|
  {
    if |times| == 0 then Trace([], st)
    else
      var a := CanSend(st, times[0]);
      var rest := Run(a.next, times[1..]);
      if a.decision.Allow? then Trace([times[0]] + rest.sent, rest.final) else rest
  }

  /** Every time in `sent` lies at least 30 s after `t`. */
  predicate AllAfter(sent: seq<int>, t: int) {
    forall i :: 0 <= i < |sent| ==> sent[i] >= t + MinInterval
  }

  /** Each time in `sent` lies at least 30 s after every earlier one. */
  predicate Spaced(sent: seq<int>) {
    forall i, j :: 0 <= i < j < |sent| ==> sent[j] >= sent[i] + MinInterval
  }

  /**
   * Every accepted time is one of the attempt times, lies at least 30 s after
   * the starting state's last submission and 30 s after every earlier
   * accepted one, and the final state holds the last accepted time.
   */
  lemma RunKeepsInterval(st: RateLimiter, times: seq<int>)
    ensures var t := Run(st, times);
      && (forall i :: 0 <= i < |t.sent| ==> t.sent[i] in times)
      && AllAfter(t.sent, st.lastSend)
      && Spaced(t.sent)
      && t.final.lastSend == if |t.sent| == 0 then st.lastSend else t.sent[|t.sent| - 1]
  {
    RunSendsAttempts(st, times);
    RunSendsAfterStart(st, times);
    RunSendsSpaced(st, times);
    RunEndsAtLastSent(st, times);
  }

  lemma {:induction false} RunSendsAttempts(st: RateLimiter, times: seq<int>)
    ensures forall i :: 0 <= i < |Run(st, times).sent| ==> Run(st, times).sent[i] in times
    decreases |times|
  {
    if |times| > 0 {
      var a := CanSend(st, times[0]);
      RunSendsAttempts(a.next, times[1..]);
      var rest := Run(a.next, times[1..]);
      assert forall i :: 0 <= i < |rest.sent| ==> rest.sent[i] in times[1..];
      assert forall x :: x in times[1..] ==> x in times;
      if a.decision.Allow? {
        var sent := [times[0]] + rest.sent;
        assert Run(st, times).sent == sent;
        assert forall i :: 1 <= i < |sent| ==> sent[i] == rest.sent[i - 1];
      }
    }
  }

  lemma {:induction false} RunSendsAfterStart(st: RateLimiter, times: seq<int>)
    ensures AllAfter(Run(st, times).sent, st.lastSend)
    decreases |times|
  {
    if |times| > 0 {
      var a := CanSend(st, times[0]);
      RunSendsAfterStart(a.next, times[1..]);
      var rest := Run(a.next, times[1..]);
      if a.decision.Allow? {
        assert a.next.lastSend >= st.lastSend + MinInterval;
        AllAfterCons(times[0], rest.sent, st.lastSend);
      }
    }
  }

  lemma AllAfterCons(x: int, rest: seq<int>, t: int)
    requires x >= t + MinInterval && AllAfter(rest, x)
    ensures AllAfter([x] + rest, t)
  {
    var s := [x] + rest;
    forall i | 0 <= i < |s| ensures s[i] >= t + MinInterval {
      if i > 0 {
        assert s[i] == rest[i - 1];
      }
    }
  }

  lemma {:induction false} RunSendsSpaced(st: RateLimiter, times: seq<int>)
    ensures Spaced(Run(st, times).sent)
    decreases |times|
  {
    if |times| > 0 {
      var a := CanSend(st, times[0]);
      RunSendsSpaced(a.next, times[1..]);
      var rest := Run(a.next, times[1..]);
      if a.decision.Allow? {
        RunSendsAfterStart(a.next, times[1..]);
        SpacedCons(times[0], rest.sent);
      }
    }
  }

  lemma SpacedCons(x: int, rest: seq<int>)
    requires Spaced(rest) && AllAfter(rest, x)
    ensures Spaced([x] + rest)
  {
    var s := [x] + rest;
    forall i, j | 0 <= i < j < |s| ensures s[j] >= s[i] + MinInterval {
      assert s[j] == rest[j - 1];
      if i > 0 {
        assert s[i] == rest[i - 1];
      }
    }
  }

  lemma {:induction false} RunEndsAtLastSent(st: RateLimiter, times: seq<int>)
    ensures var t := Run(st, times);
      t.final.lastSend == if |t.sent| == 0 then st.lastSend else t.sent[|t.sent| - 1]
    decreases |times|
  {
    if |times| > 0 {
      var a := CanSend(st, times[0]);
      RunEndsAtLastSent(a.next, times[1..]);
    }
  }

  /** One press of the submit button at time `now`; `formValid` says whether the form's own checks pass. */
  datatype SubmitEvent = SubmitEvent(now: int, formValid: bool)

  /** The times of the events whose form passes its checks, in order. */
  function ValidTimes(events: seq<SubmitEvent>): (times: seq<int>)
    ensures |times| <= |events|
    decreases |events|
  {
    if |events| == 0 then []
    else (if events[0].formValid then [events[0].now] else []) + ValidTimes(events[1..])
  }

  /**
   * Submit events as the page wires them. The send listener schedules the
   * send with `setTimeout` whenever the form passes its checks and never
   * consults `podeEnviar`; the separate rate-limit listener calls
   * `podeEnviar` on every event, and all a refusal does is `preventDefault`,
   * which stops neither the other listener nor its timer.
   */
  function SubmitRunAsWritten(st: RateLimiter, events: seq<SubmitEvent>): (t: Trace)
    ensures |t.sent| <= |events|
    decreases |events|
  {
    if |events| == 0 then Trace([], st)
    else
      var e := events[0];
      var rest := SubmitRunAsWritten(CanSend(st, e.now).next, events[1..]);
      if e.formValid then Trace([e.now] + rest.sent, rest.final) else rest
  }

  /** As wired, every submission whose form passes is sent, whatever `podeEnviar` answers. */
  lemma {:induction false} SubmitRunAsWrittenSendsAllValid(st: RateLimiter, events: seq<SubmitEvent>)
    ensures SubmitRunAsWritten(st, events).sent == ValidTimes(events)
    decreases |events|
  {
    if |events| > 0 {
      SubmitRunAsWrittenSendsAllValid(CanSend(st, events[0].now).next, events[1..]);
      if !events[0].formValid {
        assert ValidTimes(events) == [] + ValidTimes(events[1..]);
      }
    }
  }

  /**
   * Two valid submissions 1 ms apart are both sent, although `podeEnviar`
   * refuses the second.
   */
  lemma SubmitRunAsWrittenIgnoresInterval()
    ensures var events := [SubmitEvent(30000, true), SubmitEvent(30001, true)];
      && SubmitRunAsWritten(InitialLimiter, events).sent == [30000, 30001]
      && !CanSend(RateLimiter(30000), 30001).decision.Allow?
      && !Spaced(SubmitRunAsWritten(InitialLimiter, events).sent)
  {
    var events := [SubmitEvent(30000, true), SubmitEvent(30001, true)];
    SubmitRunAsWrittenSendsAllValid(InitialLimiter, events);
    assert events[1..] == [SubmitEvent(30001, true)];
    assert events[1..][1..] == [];
    assert ValidTimes(events[1..]) == [30001] + [];
    assert ValidTimes(events) == [30000] + [30001];
    var sent: seq<int> := [30000, 30001];
    assert sent[1] < sent[0] + MinInterval;
  }

  /**
   * The intended wiring: a submission whose form passes is sent only when
   * `podeEnviar` allows it, and only a send moves the guard. Every send then
   * lies 30 s after the starting state's last one and after every earlier send.
   */
  function SubmitRunGuarded(st: RateLimiter, events: seq<SubmitEvent>): (t: Trace)
    ensures AllAfter(t.sent, st.lastSend)
    ensures Spaced(t.sent)
    decreases |events|
  {
    if |events| == 0 then Trace([], st)
    else
      var e := events[0];
      if !e.formValid then SubmitRunGuarded(st, events[1..])
      else
        var a := CanSend(st, e.now);
        var rest := SubmitRunGuarded(a.next, events[1..]);
        if a.decision.Allow? then
          AllAfterCons(e.now, rest.sent, st.lastSend);
          SpacedCons(e.now, rest.sent);
          Trace([e.now] + rest.sent, rest.final)
        else rest
  }

  /** The intended wiring is `podeEnviar` applied to exactly the submissions whose form passes. */
  lemma {:induction false} SubmitRunGuardedIsRun(st: RateLimiter, events: seq<SubmitEvent>)
    ensures SubmitRunGuarded(st, events) == Run(st, ValidTimes(events))
    decreases |events|
  {
    if |events| > 0 {
      var e := events[0];
      if e.formValid {
        SubmitRunGuardedIsRun(CanSend(st, e.now).next, events[1..]);
        var ts := ValidTimes(events);
        assert ts == [e.now] + ValidTimes(events[1..]);
        assert ts[0] == e.now && ts[1..] == ValidTimes(events[1..]);
        var a := CanSend(st, e.now);
        var rest := Run(a.next, ValidTimes(events[1..]));
        assert Run(st, ts) == if a.decision.Allow? then Trace([e.now] + rest.sent, rest.final) else rest;
        assert SubmitRunGuarded(st, events)
          == if a.decision.Allow? then Trace([e.now] + rest.sent, rest.final) else rest;
      } else {
        SubmitRunGuardedIsRun(st, events[1..]);
        assert ValidTimes(events) == [] + ValidTimes(events[1..]) == ValidTimes(events[1..]);
        assert SubmitRunGuarded(st, events) == SubmitRunGuarded(st, events[1..]);
      }
    }
  }
}

=== FILE: consistency.dfy ===
/**
 * How the checks of the three tiers relate: what the browser accepts
 * against what the serverless endpoint accepts, and the browser's file check
 * against the Apps Script's MIME table.
 */
module Consistency {
  import opened JsText
  import opened JsNumber
  import Api = SubmitApi
  import Form = ClientForm
  import Script = AppsScript

  /** Every address the server's pattern accepts, the browser's accepts too. */
  lemma ServerEmailIsClientEmail(s: string)
    requires Api.ServerEmailPattern(s)
    ensures Form.ValidEmail(s)
  {
    var at: nat, dot: nat :| at < dot < |s| && Api.ServerEmailSplit(s, at, dot);
    assert Form.ClientEmailSplit(s, at, dot) by {
      forall i | 0 <= i < at ensures Form.IsEmailPartChar(s[i]) {
        assert Api.IsLocalChar(s[i]);
      }
      forall i | at < i < dot ensures Form.IsEmailPartChar(s[i]) {
        assert Api.IsDomainChar(s[i]);
      }
      forall i | dot < i < |s| ensures Form.IsEmailPartChar(s[i]) {
        assert IsAsciiLetter(s[i]);
      }
    }
    Form.ValidEmailWitness(s, at, dot);
  }

  /**
   * The converse fails: the browser lets a non-ASCII local part through and
   * the server then refuses the address.
   */
  lemma ClientEmailNotServerEmail()
    ensures Form.ValidEmail("\U{00E1}@b.cd")
    ensures !Api.ServerEmailPattern("\U{00E1}@b.cd")
  {
    var s := "\U{00E1}@b.cd";
    Form.ValidEmailWitness(s, 1, 3);
    forall at: nat, dot: nat | at < dot < |s| ensures !Api.ServerEmailSplit(s, at, dot) {
      assert !Api.IsLocalChar(s[0]);
    }
  }

  /** The server's phone layout holds exactly 10 or 11 digits, so the browser accepts it. */
  lemma ServerPhoneIsClientPhone(s: string)
    requires Api.ServerPhonePattern(s)
    ensures Form.ValidPhone(s)
  {
    var n := |s|;
    var open, area, close := s[..1], s[1..3], s[3..5];
    var middle, dash, last := s[5..n - 5], s[n - 5..n - 4], s[n - 4..];
    assert s == open + area + close + middle + dash + last;
    assert forall i :: 0 <= i < |close| ==> close[i] == s[3 + i];
    DigitsOfPhoneParts(open, area, close, middle, dash, last);
  }

  /** The digits of the server's layout are its area code, middle group and last four. */
  lemma DigitsOfPhoneParts(open: string, area: string, close: string, middle: string, dash: string, last: string)
    requires forall i :: 0 <= i < |open| ==> !IsAsciiDigit(open[i])
    requires forall i :: 0 <= i < |close| ==> !IsAsciiDigit(close[i])
    requires forall i :: 0 <= i < |dash| ==> !IsAsciiDigit(dash[i])
    requires AllDigits(area) && AllDigits(middle) && AllDigits(last)
    requires |area| == 2 && (|middle| == 4 || |middle| == 5) && |last| == 4
    ensures |Form.DigitsOf(open + area + close + middle + dash + last)| == 10
      || |Form.DigitsOf(open + area + close + middle + dash + last)| == 11
  {
    Form.DigitsOfNonDigits(open);
    var x1 := open + area;
    Form.DigitsAppendDigits(open, area);
    var x2 := x1 + close;
    Form.DigitsAppendNonDigits(x1, close);
    var x3 := x2 + middle;
    Form.DigitsAppendDigits(x2, middle);
    var x4 := x3 + dash;
    Form.DigitsAppendNonDigits(x3, dash);
    Form.DigitsAppendDigits(x4, last);
  }

  /** The replacement `(DD) DDDD-DDDD` or `(DD) DDDDD-DDDD` fits the server's pattern. */
  lemma LayoutMatchesServer(g1: string, g2: string, g3: string)
    requires AllDigits(g1) && AllDigits(g2) && AllDigits(g3)
    requires |g1| == 2 && (|g2| == 4 || |g2| == 5) && |g3| == 4
    ensures Api.ServerPhonePattern(Form.PhoneLayout(g1, g2, g3))
  {
    var p := Form.PhoneLayout(g1, g2, g3);
    assert p == "(" + g1 + ") " + g2 + "-" + g3;
    assert p[1] == g1[0] && p[2] == g1[1];
    forall i | 5 <= i < |p| - 5 ensures IsAsciiDigit(p[i]) {
      assert p[i] == g2[i - 5];
    }
    forall i | |p| - 4 <= i < |p| ensures IsAsciiDigit(p[i]) {
      assert p[i] == g3[i - (|p| - 4)];
    }
  }

  /**
   * The browser's mask produces text the server's phone pattern accepts
   * exactly when the browser's own phone check passes.
   */
  lemma MaskedPhoneMatchesServer(s: string)
    ensures Api.ServerPhonePattern(Form.MaskPhone(s)) <==> Form.ValidPhone(s)
  {
    var v := Form.DigitsOf(s);
    Form.MaskByDigitCount(s);
    if |v| < 10 {
      BareDigitsNotServerPhone(v);
    } else if |v| == 10 {
      LayoutMatchesServer(v[..2], v[2..6], v[6..]);
    } else if |v| == 11 {
      assert v[11..] == [];
      var m := Form.PhoneLayout(v[..2], v[2..7], v[7..11]);
      assert m + v[11..] == m;
      LayoutMatchesServer(v[..2], v[2..7], v[7..11]);
    } else {
      LongMaskNotServerPhone(v[..2], v[2..7], v[7..11], v[11..]);
    }
  }

  /** Bare digits lack the `(` the server's layout starts with. */
  lemma BareDigitsNotServerPhone(v: string)
    requires AllDigits(v)
    ensures !Api.ServerPhonePattern(v)
  {
    if |v| > 0 {
      assert IsAsciiDigit(v[0]);
    }
  }

  /** Digits left over after the layout make the text longer than 15 characters. */
  lemma LongMaskNotServerPhone(g1: string, g2: string, g3: string, tail: string)
    requires |g1| == 2 && |g2| == 5 && |g3| == 4 && |tail| > 0
    ensures !Api.ServerPhonePattern(Form.PhoneLayout(g1, g2, g3) + tail)
  {
    assert |Form.PhoneLayout(g1, g2, g3) + tail| > 15;
  }

  /** Text in the server's phone layout comes out of `sanitizeInput` unchanged. */
  lemma SanitizeKeepsServerPhone(m: string)
    requires Api.ServerPhonePattern(m)
    ensures Api.Sanitize(m) == m
  {
    forall i | 0 <= i < |m| ensures !Api.IsDangerous(m[i]) {
      if i == 4 {
        assert IsJsWhitespace(m[4]);
      } else if 5 <= i < |m| - 5 {
        assert IsAsciiDigit(m[i]);
      } else if |m| - 4 <= i {
        assert IsAsciiDigit(m[i]);
      }
    }
    Api.SanitizeKeepsCleanInput(m);
  }

  /**
   * A phone the browser accepts, masked as the browser shows it, passes the
   * server's sanitiser unchanged and then the server's phone check.
   */
  lemma MaskedPhoneSurvivesServer(s: string)
    requires Form.ValidPhone(s)
    ensures Api.Sanitize(Form.MaskPhone(s)) == Form.MaskPhone(s)
    ensures Api.ServerPhonePattern(Api.Sanitize(Form.MaskPhone(s)))
  {
    MaskedPhoneMatchesServer(s);
    SanitizeKeepsServerPhone(Form.MaskPhone(s));
  }

  /**
   * The browser accepts a file exactly when it is within the size limit and
   * the Apps Script's table gives it a type other than
   * `application/octet-stream`.
   */
  lemma ClientFileCheckMatchesMimeTable(name: string, size: nat)
    ensures Form.CheckSelectedFile(name, size) == Form.FileAccepted <==>
      size <= Form.MaxFileSize && Script.MimeType(name) != Script.OctetStream
  {
    var ext := Script.Extension(name);
    assert ext == ToLowerAscii(LastSegment(name, '.'));
    assert Script.MimeType(name) != Script.OctetStream <==> ext in {"pdf", "doc", "docx"};
  }

  /**
   * On the same text the browser's `validarIdade` and the server's age check
   * agree: both read the text with `parseInt` and accept 16 to 99.
   */
  lemma ClientAgeIsServerAge(s: string)
    ensures Form.ValidAge(s) <==> Api.AgeInRange(s)
  {
  }

  /**
   * The two age checks can disagree: the browser reads `20<0` as 20, while
   * the server deletes the `<` first, reads 200 and refuses it as out of
   * range.
   */
  lemma AgeChecksDisagree()
    ensures Form.ValidAge("20<0")
    ensures Api.Sanitize("20<0") == "200"
    ensures ParseInt("200") == Some(200)
    ensures !Api.AgeInRange(Api.Sanitize("20<0"))
  {
    ClientReadsTwenty();
    ServerReadsTwoHundred();
    SanitizeDeletesLessThan();
  }

  lemma ClientReadsTwenty()
    ensures Form.ValidAge("20<0")
  {
    assert Decimal(2) == "2";
    assert Decimal(20) == "20";
    assert "20" + "<0" == "20<0";
    Form.ValidAgeOfDecimalThen(20, "<0");
  }

  lemma ServerReadsTwoHundred()
    ensures ParseInt("200") == Some(200)
  {
    assert Decimal(2) == "2";
    assert Decimal(20) == "20";
    assert Decimal(200) == "200";
    ParseIntOfBareDecimal(200);
  }

  lemma SanitizeDeletesLessThan()
    ensures Api.Sanitize("20<0") == "200"
  {
    Api.SanitizeJoinsAroundDeleted("20", '<', "0");
    assert "20" + (['<'] + "0") == "20<0";
    assert "20" + "0" == "200";
  }
}

=== FILE: js_number.dfy ===
/**
 * The two number/string conversions the form code uses: the global
 * `parseInt(string)` with no radix argument, and the decimal text of a
 * non-negative integer (what a template literal prints for a timestamp).
 */
module JsNumber {
  import opened JsText

  /** A digit of radix 10 (`0-9`) or radix 16 (`0-9a-fA-F`). */
  predicate IsRadixDigit(c: char, radix: nat) {
    || IsAsciiDigit(c)
    || (radix == 16 && ('a' <= c <= 'f' || 'A' <= c <= 'F'))
  }

  function DigitValue(c: char): nat {
    if '0' <= c <= '9' then c as int - '0' as int
    else if 'a' <= c <= 'f' then c as int - 'a' as int + 10
    else if 'A' <= c <= 'F' then c as int - 'A' as int + 10
    else 0
  }

  /** The longest prefix of `s` made of radix digits. */
  function DigitPrefix(s: string, radix: nat): (r: string)
    ensures |r| <= |s| && r == s[..|r|]
    ensures forall i :: 0 <= i < |r| ==> IsRadixDigit(r[i], radix)
    ensures |r| == |s| || !IsRadixDigit(s[|r|], radix)
  {
    if |s| > 0 && IsRadixDigit(s[0], radix) then
      var rest := DigitPrefix(s[1..], radix);
      assert ([s[0]] + rest)[1..] == rest;
      [s[0]] + rest
    else
      []
  }

  /** The number a digit string denotes in the given radix, most significant digit first. */
  function DigitsValue(s: string, radix: nat): nat {
    if |s| == 0 then 0
    else DigitsValue(s[..|s| - 1], radix) * radix + DigitValue(s[|s| - 1])
  }

  function DigitChar(d: nat): (c: char)
    requires d < 10
  {
    ('0' as int + d) as char
  }

  /**
   * The decimal text of a non-negative integer, with no leading zero unless
   * the number is 0.
   */
  function Decimal(n: nat): (r: string)
    ensures |r| >= 1 && AllDigits(r)
    ensures r[0] == '0' ==> n == 0
  {
    if n < 10 then [DigitChar(n)] else Decimal(n / 10) + [DigitChar(n % 10)]
  }

  /** The decimal text of an integer, with a `-` in front when it is negative. */
  function SignedDecimal(n: int): (r: string)
    ensures |r| >= 1
    ensures n < 0 <==> r[0] == '-'
    ensures '_' !in r
  {
    if n < 0 then "-" + Decimal(-n) else Decimal(n)
  }

  /** Reading back the decimal text of `n` gives `n`. */
  lemma {:induction false} DecimalValue(n: nat)
    ensures DigitsValue(Decimal(n), 10) == n
    decreases n
  {
    if n >= 10 {
      DecimalValue(n / 10);
      var s := Decimal(n);
      assert s[..|s| - 1] == Decimal(n / 10);
    }
  }

  /** Distinct integers print differently. */
  lemma SignedDecimalInjective(a: int, b: int)
    requires SignedDecimal(a) == SignedDecimal(b)
    ensures a == b
  {
    if a < 0 && b < 0 {
      DropSign(Decimal(-a), Decimal(-b));
      DecimalInjective(-a, -b);
    } else if a >= 0 && b >= 0 {
      DecimalInjective(a, b);
    }
  }

  lemma DecimalInjective(a: nat, b: nat)
    requires Decimal(a) == Decimal(b)
    ensures a == b
  {
    DecimalValue(a);
    DecimalValue(b);
  }

  lemma DropSign(x: string, y: string)
    requires "-" + x == "-" + y
    ensures x == y
  {
    assert x == ("-" + x)[1..];
  }

  /**
   * The unsigned part of `parseInt`: radix 16 after a `0x`/`0X` prefix,
   * otherwise radix 10, then the value of the longest digit run, or `None`
   * when that run is empty.
   */
  function ParseMagnitude(u: string): (r: Option<nat>)
  {
    var hex := |u| >= 2 && u[0] == '0' && (u[1] == 'x' || u[1] == 'X');
    var radix := if hex then 16 else 10;
    var z := DigitPrefix(if hex then u[2..] else u, radix);
    if |z| == 0 then None else Some(DigitsValue(z, radix))
  }

  /** `parseInt` after the leading white space: an optional sign, then the magnitude. */
  function ParseSigned(t: string): (r: Option<int>)
  {
    var signed := |t| > 0 && (t[0] == '-' || t[0] == '+');
    var negative := |t| > 0 && t[0] == '-';
    match ParseMagnitude(if signed then t[1..] else t)
    case None => None
    case Some(m) => Some(if negative then 0 - m else m)
  }

  /**
   * The global `parseInt(s)` with no radix argument. NaN is `None`; numbers
   * are exact integers (see the README on double rounding).
   */
  function ParseInt(s: string): (r: Option<int>)
  {
    ParseSigned(TrimStart(s))
  }

  /** `parseInt` skips any white space in front of text that does not itself start with white space. */
  lemma ParseIntSkipsWhitespace(lead: string, t: string)
    requires AllWhitespace(lead)
    requires t == [] || !IsJsWhitespace(t[0])
    ensures ParseInt(lead + t) == ParseSigned(t)
  {
    TrimStartSkipsWhitespace(lead, t);
  }

  /** The magnitude of a printed number followed by non-digit text is that number. */
  lemma MagnitudeOfDecimal(n: nat, rest: string)
    requires rest == [] || !IsAsciiDigit(rest[0])
    requires n == 0 && rest != [] ==> rest[0] != 'x' && rest[0] != 'X'
    ensures ParseMagnitude(Decimal(n) + rest) == Some(n)
  {
    var d := Decimal(n);
    var u := d + rest;
    assert u[0] == d[0];
    if |d| == 1 && rest != [] {
      assert u[1] == rest[0];
    } else if |d| >= 2 {
      assert u[1] == d[1];
    }
    DigitPrefixOfDigits(d, rest, 10);
    DecimalValue(n);
  }

  /** A run of digits followed by a non-digit (or nothing) is the whole digit prefix. */
  lemma {:induction false} DigitPrefixOfDigits(d: string, rest: string, radix: nat)
    requires forall i :: 0 <= i < |d| ==> IsRadixDigit(d[i], radix)
    requires rest == [] || !IsRadixDigit(rest[0], radix)
    ensures DigitPrefix(d + rest, radix) == d
    decreases |d|
  {
    if |d| > 0 {
      assert (d + rest)[1..] == d[1..] + rest;
      DigitPrefixOfDigits(d[1..], rest, radix);
      assert d == [d[0]] + d[1..];
    } else {
      assert d + rest == rest;
    }
  }

  /**
   * `parseInt` reads back a printed non-negative integer, whatever white space
   * precedes it and whatever non-digit text follows it (as long as that text
   * does not turn a lone `0` into a `0x` prefix).
   */
  lemma ParseIntOfDecimal(lead: string, n: nat, rest: string)
    requires AllWhitespace(lead)
    requires rest == [] || !IsAsciiDigit(rest[0])
    requires n == 0 && rest != [] ==> rest[0] != 'x' && rest[0] != 'X'
    ensures ParseInt(lead + Decimal(n) + rest) == Some(n)
  {
    MagnitudeOfDecimal(n, rest);
    ParseIntOfDigits(lead, Decimal(n), rest, n);
  }

  lemma ParseIntOfBareDecimal(n: nat)
    ensures ParseInt(Decimal(n)) == Some(n)
  {
    ParseIntOfDecimal("", n, "");
    assert "" + Decimal(n) + "" == Decimal(n);
  }

  lemma ParseIntOfDecimalThen(n: nat, rest: string)
    requires rest == [] || !IsAsciiDigit(rest[0])
    requires n == 0 && rest != [] ==> rest[0] != 'x' && rest[0] != 'X'
    ensures ParseInt(Decimal(n) + rest) == Some(n)
  {
    var u := Decimal(n) + rest;
    MagnitudeOfDecimal(n, rest);
    assert u[0] == Decimal(n)[0];
    UnsignedAfterWhitespace("", u, n);
    assert "" + u == u;
  }

  /** A leading minus sign negates the value read. */
  lemma ParseIntOfNegativeDecimal(lead: string, n: nat, rest: string)
    requires AllWhitespace(lead)
    requires rest == [] || !IsAsciiDigit(rest[0])
    requires n == 0 && rest != [] ==> rest[0] != 'x' && rest[0] != 'X'
    ensures ParseInt(lead + "-" + Decimal(n) + rest) == Some(0 - n)
  {
    MagnitudeOfDecimal(n, rest);
    ParseIntOfNegated(lead, Decimal(n), rest, n);
  }

  /** Digits after white space are read as their magnitude. */
  lemma ParseIntOfDigits(lead: string, d: string, rest: string, m: nat)
    requires AllWhitespace(lead)
    requires d != [] && IsAsciiDigit(d[0])
    requires ParseMagnitude(d + rest) == Some(m)
    ensures ParseInt(lead + d + rest) == Some(m)
  {
    assert lead + d + rest == lead + (d + rest);
    assert (d + rest)[0] == d[0];
    UnsignedAfterWhitespace(lead, d + rest, m);
  }

  lemma UnsignedAfterWhitespace(lead: string, u: string, m: nat)
    requires AllWhitespace(lead)
    requires u != [] && IsAsciiDigit(u[0])
    requires ParseMagnitude(u) == Some(m)
    ensures ParseInt(lead + u) == Some(m)
  {
    UnsignedMagnitude(u, m);
    ParseIntSkipsWhitespace(lead, u);
  }

  lemma UnsignedMagnitude(u: string, m: nat)
    requires u != [] && IsAsciiDigit(u[0])
    requires ParseMagnitude(u) == Some(m)
    ensures ParseSigned(u) == Some(m)
  {
  }

  /** A minus sign after white space negates the magnitude that follows. */
  lemma ParseIntOfNegated(lead: string, d: string, rest: string, m: nat)
    requires AllWhitespace(lead)
    requires ParseMagnitude(d + rest) == Some(m)
    ensures ParseInt(lead + "-" + d + rest) == Some(0 - m)
  {
    assert lead + "-" + d + rest == lead + ("-" + (d + rest));
    NegatedAfterWhitespace(lead, d + rest, m);
  }

  lemma NegatedAfterWhitespace(lead: string, u: string, m: nat)
    requires AllWhitespace(lead)
    requires ParseMagnitude(u) == Some(m)
    ensures ParseInt(lead + ("-" + u)) == Some(0 - m)
  {
    NegativeSign(u, m);
    assert ("-" + u)[0] == '-';
    ParseIntSkipsWhitespace(lead, "-" + u);
  }

  lemma NegativeSign(u: string, m: nat)
    requires ParseMagnitude(u) == Some(m)
    ensures ParseSigned("-" + u) == Some(0 - m)
  {
    assert ("-" + u)[1..] == u;
  }

  /** A plus sign is read and dropped. */
  lemma PositiveSign(u: string, m: nat)
    requires ParseMagnitude(u) == Some(m)
    ensures ParseSigned("+" + u) == Some(m)
  {
    assert ("+" + u)[1..] == u;
  }

  /**
   * Any run of decimal digits, leading zeros included, is read as its value
   * `m`: after white space, with no sign, a `+` or a `-`, and before text
   * that does not continue the run (nor turns a lone `0` into a `0x` prefix).
   */
  lemma ParseIntOfDigitRun(lead: string, d: string, rest: string, m: nat)
    requires AllWhitespace(lead)
    requires |d| > 0 && AllDigits(d) && m == DigitsValue(d, 10)
    requires rest == [] || !IsAsciiDigit(rest[0])
    requires |d| == 1 && d[0] == '0' && rest != [] ==> rest[0] != 'x' && rest[0] != 'X'
    ensures ParseInt(lead + d + rest) == Some(m)
    ensures ParseInt(lead + "+" + d + rest) == Some(m)
    ensures ParseInt(lead + "-" + d + rest) == Some(0 - m)
  {
    MagnitudeOfDigitRun(d, rest, m);
    ParseIntOfDigits(lead, d, rest, m);
    PlusRun(lead, d, rest, m);
    ParseIntOfNegated(lead, d, rest, m);
  }

  lemma PlusRun(lead: string, d: string, rest: string, m: nat)
    requires AllWhitespace(lead)
    requires ParseMagnitude(d + rest) == Some(m)
    ensures ParseInt(lead + "+" + d + rest) == Some(m)
  {
    assert lead + "+" + d + rest == lead + ("+" + (d + rest));
    PlusAfterWhitespace(lead, d + rest, m);
  }

  lemma MagnitudeOfDigitRun(d: string, rest: string, m: nat)
    requires |d| > 0 && AllDigits(d) && m == DigitsValue(d, 10)
    requires rest == [] || !IsAsciiDigit(rest[0])
    requires |d| == 1 && d[0] == '0' && rest != [] ==> rest[0] != 'x' && rest[0] != 'X'
    ensures ParseMagnitude(d + rest) == Some(m)
  {
    var u := d + rest;
    assert u[0] == d[0];
    var hex := |u| >= 2 && u[0] == '0' && (u[1] == 'x' || u[1] == 'X');
    if |d| == 1 && rest != [] {
      assert u[1] == rest[0];
    } else if |d| >= 2 {
      assert u[1] == d[1];
    }
    assert !hex;
    DigitPrefixOfDigits(d, rest, 10);
    assert DigitPrefix(u, 10) == d;
  }

  lemma PlusAfterWhitespace(lead: string, u: string, m: nat)
    requires AllWhitespace(lead)
    requires ParseMagnitude(u) == Some(m)
    ensures ParseInt(lead + ("+" + u)) == Some(m)
  {
    PositiveSign(u, m);
    assert ("+" + u)[0] == '+';
    ParseIntSkipsWhitespace(lead, "+" + u);
  }

  /** Text with no digit after the white space and sign is NaN. */
  lemma ParseIntWithoutDigits(lead: string, rest: string)
    requires AllWhitespace(lead)
    requires rest == [] || (!IsAsciiDigit(rest[0]) && !IsJsWhitespace(rest[0]) && rest[0] != '-' && rest[0] != '+')
    ensures ParseInt(lead + rest) == None
  {
    ParseIntSkipsWhitespace(lead, rest);
  }

  /** After `0x` or `0X` the digits are read in base 16. */
  lemma ParseMagnitudeHex(x: char, d: string, rest: string)
    requires x == 'x' || x == 'X'
    requires |d| > 0 && forall i :: 0 <= i < |d| ==> IsRadixDigit(d[i], 16)
    requires rest == [] || !IsRadixDigit(rest[0], 16)
    ensures ParseMagnitude(['0', x] + (d + rest)) == Some(DigitsValue(d, 16))
  {
    assert (['0', x] + (d + rest))[2..] == d + rest;
    DigitPrefixOfDigits(d, rest, 16);
  }

  /** `parseInt("0x10")` is 16: the hexadecimal prefix is honoured. */
  lemma ParseIntHexSixteen()
    ensures ParseInt("0x10") == Some(16)
  {
    HexMagnitudeSixteen();
    ParseIntOfDigits("", "0x10", "", 16);
    assert "" + "0x10" + "" == "0x10";
  }

  lemma HexMagnitudeSixteen()
    ensures ParseMagnitude("0x10") == Some(16)
  {
    assert "10"[..1] == "1" && "1"[..0] == "";
    assert DigitsValue("10", 16) == 16;
    ParseMagnitudeHex('x', "10", "");
    assert ['0', 'x'] + ("10" + "") == "0x10";
  }
}

=== FILE: js_text.dfy ===
/**
 * The ECMAScript string built-ins the recruitment form relies on, stated over
 * `seq<char>`: the character classes its regular expressions use, `trim`,
 * ASCII lower-casing, and `split` on a single separator character.
 */
module JsText {

  /** A value that may be absent, as `undefined` is in a parsed JSON body. */
  datatype Option<+T> = None | Some(value: T)

  /** JavaScript truthiness of an optional string: present and not empty. */
  predicate Present(f: Option<string>) {
    f.Some? && f.value != ""
  }

  /** `f || ''`: the string when it is truthy, otherwise the empty string. */
  function OrEmpty(f: Option<string>): string {
    if Present(f) then f.value else ""
  }

  /** `\d` in a regular expression without the `u` flag: the ten ASCII digits. */
  predicate IsAsciiDigit(c: char) {
    '0' <= c <= '9'
  }

  predicate IsAsciiLetter(c: char) {
    'a' <= c <= 'z' || 'A' <= c <= 'Z'
  }

  /** The class `[a-zA-Z0-9]`. */
  predicate IsAsciiAlnum(c: char) {
    IsAsciiDigit(c) || IsAsciiLetter(c)
  }

  /**
   * The ECMAScript WhiteSpace and LineTerminator code points: exactly what
   * `String.prototype.trim` removes and what `\s` matches.
   */
  predicate IsJsWhitespace(c: char) {
    || c == '\t' || c == '\n' || c == '\U{000B}' || c == '\U{000C}' || c == '\r'
    || c == ' ' || c == '\U{00A0}' || c == '\U{1680}'
    || ('\U{2000}' <= c <= '\U{200A}')
    || c == '\U{2028}' || c == '\U{2029}' || c == '\U{202F}' || c == '\U{205F}'
    || c == '\U{3000}' || c == '\U{FEFF}'
  }

  predicate AllDigits(s: string) {
    forall i :: 0 <= i < |s| ==> IsAsciiDigit(s[i])
  }

  predicate AllWhitespace(s: string) {
    forall i :: 0 <= i < |s| ==> IsJsWhitespace(s[i])
  }

  /** A code point of the Basic Multilingual Plane: one UTF-16 code unit. */
  predicate IsBmp(c: char) {
    c <= '\U{FFFF}'
  }

  /**
   * A JavaScript string's `length`: a code point above U+FFFF is a surrogate
   * pair, two UTF-16 code units; every other code point is one.
   */
  function Utf16Length(s: string): (n: nat)
    ensures |s| <= n <= 2 * |s|
    ensures n == |s| <==> forall i :: 0 <= i < |s| ==> IsBmp(s[i])
    decreases |s|
  {
    if |s| == 0 then 0
    else
      assert forall i :: 1 <= i < |s| ==> s[i] == s[1..][i - 1];
      (if IsBmp(s[0]) then 1 else 2) + Utf16Length(s[1..])
  }

  /** One code point is one code unit in the Basic Multilingual Plane and two outside it. */
  lemma Utf16LengthOfChar(c: char)
    ensures Utf16Length([c]) == if IsBmp(c) then 1 else 2
  {
    assert [c][1..] == [];
  }

  /** The length of a concatenation is the sum of the lengths: the count is per code point. */
  lemma {:induction false} Utf16LengthConcat(a: string, b: string)
    ensures Utf16Length(a + b) == Utf16Length(a) + Utf16Length(b)
    decreases |a|
  {
    if |a| > 0 {
      Utf16LengthConcat(a[1..], b);
      assert (a + b)[1..] == a[1..] + b;
    } else {
      assert a + b == b;
    }
  }

  /** Removes leading white space (`trimStart`). */
  function TrimStart(s: string): (r: string)
    ensures |r| <= |s| && r == s[|s| - |r|..]
    ensures forall i :: 0 <= i < |s| - |r| ==> IsJsWhitespace(s[i])
    ensures r == [] || !IsJsWhitespace(r[0])
  {
    if |s| > 0 && IsJsWhitespace(s[0]) then
      var r := TrimStart(s[1..]);
      assert s[1..][|s| - 1 - |r|..] == s[|s| - |r|..];
      r
    else
      s
  }

  /** Removes trailing white space (`trimEnd`). */
  function TrimEnd(s: string): (r: string)
    ensures |r| <= |s| && r == s[..|r|]
    ensures forall i :: |r| <= i < |s| ==> IsJsWhitespace(s[i])
    ensures r == [] || !IsJsWhitespace(r[|r| - 1])
  {
    if |s| > 0 && IsJsWhitespace(s[|s| - 1]) then
      var r := TrimEnd(s[..|s| - 1]);
      assert s[..|s| - 1][..|r|] == s[..|r|];
      r
    else
      s
  }

  /** `s` is `r` padded on both sides with white space, the left pad `k` long. */
  predicate IsPadded(s: string, r: string, k: nat) {
    && k + |r| <= |s|
    && s[k..k + |r|] == r
    && (forall i :: 0 <= i < k ==> IsJsWhitespace(s[i]))
    && (forall i :: k + |r| <= i < |s| ==> IsJsWhitespace(s[i]))
  }

  /**
   * `String.prototype.trim`: the input is white space, then the result, then
   * white space, and the result neither starts nor ends with white space.
   */
  function Trim(s: string): (r: string)
    ensures |r| <= |s|
    ensures r == [] || (!IsJsWhitespace(r[0]) && !IsJsWhitespace(r[|r| - 1]))
    ensures exists k: nat :: IsPadded(s, r, k)
  {
    var t := TrimStart(s);
    var r := TrimEnd(t);
    PaddedBetween(s, t, r);
    r
  }

  /** A white-space suffix of a white-space suffix leaves a padded middle. */
  lemma PaddedBetween(s: string, t: string, r: string)
    requires |t| <= |s| && t == s[|s| - |t|..]
    requires forall i :: 0 <= i < |s| - |t| ==> IsJsWhitespace(s[i])
    requires |r| <= |t| && r == t[..|r|]
    requires forall i :: |r| <= i < |t| ==> IsJsWhitespace(t[i])
    ensures IsPadded(s, r, |s| - |t|)
    ensures r == [] || r[0] == t[0]
  {
    var k := |s| - |t|;
    assert s[k..k + |r|] == r;
    forall i | k + |r| <= i < |s| ensures IsJsWhitespace(s[i]) {
      assert s[i] == t[i - k];
    }
  }

  /** Leading white space never changes what `trimStart` returns. */
  lemma {:induction false} TrimStartSkipsWhitespace(ws: string, t: string)
    requires AllWhitespace(ws)
    ensures TrimStart(ws + t) == TrimStart(t)
    decreases |ws|
  {
    if |ws| > 0 {
      assert (ws + t)[1..] == ws[1..] + t;
      TrimStartSkipsWhitespace(ws[1..], t);
    } else {
      assert ws + t == t;
    }
  }

  /** A string that neither starts nor ends with white space is its own trim. */
  lemma TrimKeepsTrimmed(s: string)
    requires s == [] || (!IsJsWhitespace(s[0]) && !IsJsWhitespace(s[|s| - 1]))
    ensures Trim(s) == s
  {
  }

  function LowerChar(c: char): (d: char)
  {
    if 'A' <= c <= 'Z' then (c as int + 32) as char else c
  }

  /**
   * `toLowerCase` restricted to ASCII: letters A-Z become a-z and every other
   * character is kept.
   */
  function ToLowerAscii(s: string): (r: string)
    ensures |r| == |s|
    ensures forall i :: 0 <= i < |s| ==> r[i] == LowerChar(s[i])
    ensures forall i :: 0 <= i < |r| ==> !('A' <= r[i] <= 'Z')
    ensures forall i :: 0 <= i < |s| ==> (r[i] != s[i] <==> 'A' <= s[i] <= 'Z')
  {
    seq(|s|, i requires 0 <= i < |s| => LowerChar(s[i]))
  }

  /** Text without capital letters is its own lower-case form. */
  lemma LowerOfLower(s: string)
    requires forall i :: 0 <= i < |s| ==> !('A' <= s[i] <= 'Z')
    ensures ToLowerAscii(s) == s
  {
  }

  /** Lower-casing twice is lower-casing once. */
  lemma ToLowerAsciiIdempotent(s: string)
    ensures ToLowerAscii(ToLowerAscii(s)) == ToLowerAscii(s)
  {
    LowerOfLower(ToLowerAscii(s));
  }

  /** `s.split(sep)` for a one-character separator. */
  function Split(s: string, sep: char): (parts: seq<string>)
    ensures |parts| >= 1
    ensures forall i :: 0 <= i < |parts| ==> sep !in parts[i]
    decreases |s|
  {
    if |s| == 0 then [""]
    else
      var rest := Split(s[1..], sep);
      if s[0] == sep then [""] + rest
      else [[s[0]] + rest[0]] + rest[1..]
  }

  /** `parts.join(sep)`. */
  function Join(parts: seq<string>, sep: char): string
    requires |parts| >= 1
    decreases |parts|
  {
    if |parts| == 1 then parts[0] else parts[0] + [sep] + Join(parts[1..], sep)
  }

  /** Joining the pieces of a split restores the input. */
  lemma {:induction false} JoinSplit(s: string, sep: char)
    ensures Join(Split(s, sep), sep) == s
    decreases |s|
  {
    if |s| > 0 {
      var rest := Split(s[1..], sep);
      JoinSplit(s[1..], sep);
      if s[0] == sep {
        assert Split(s, sep)[1..] == rest;
        assert s == [sep] + s[1..];
      } else {
        var parts := Split(s, sep);
        if |rest| == 1 {
          assert s == [s[0]] + s[1..];
        } else {
          assert parts[1..] == rest[1..];
          assert s == [s[0]] + s[1..];
        }
      }
    }
  }

  /**
   * A separator-free prefix is glued onto the first piece of whatever
   * follows it.
   */
  lemma {:induction false} SplitFreePrefix(p: string, t: string, sep: char)
    requires sep !in p
    ensures Split(p + t, sep) == [p + Split(t, sep)[0]] + Split(t, sep)[1..]
    decreases |p|
  {
    if |p| > 0 {
      assert (p + t)[1..] == p[1..] + t;
      SplitFreePrefix(p[1..], t, sep);
      assert [p[0]] + (p[1..] + Split(t, sep)[0]) == p + Split(t, sep)[0];
    } else {
      assert p + t == t;
      assert p + Split(t, sep)[0] == Split(t, sep)[0];
      assert Split(t, sep) == [Split(t, sep)[0]] + Split(t, sep)[1..];
    }
  }

  /** Splitting a join of separator-free pieces gives the pieces back. */
  lemma {:induction false} SplitJoin(parts: seq<string>, sep: char)
    requires |parts| >= 1
    requires forall i :: 0 <= i < |parts| ==> sep !in parts[i]
    ensures Split(Join(parts, sep), sep) == parts
    decreases |parts|
  {
    if |parts| == 1 {
      SplitFreePrefix(parts[0], "", sep);
      assert parts[0] + "" == parts[0];
      assert Split("", sep) == [""];
      assert parts == [parts[0]];
    } else {
      SplitJoin(parts[1..], sep);
      var tail := Join(parts[1..], sep);
      SplitFreePrefix(parts[0], [sep] + tail, sep);
      assert ([sep] + tail)[1..] == tail;
      var after := Split([sep] + tail, sep);
      assert after == [""] + parts[1..];
      assert after[0] == "" && after[1..] == parts[1..];
      assert parts[0] + [sep] + tail == parts[0] + ([sep] + tail);
      assert Join(parts, sep) == parts[0] + ([sep] + tail);
      assert parts[0] + after[0] == parts[0];
      assert parts == [parts[0]] + parts[1..];
    }
  }

  /** A string without the separator splits into itself alone. */
  lemma SplitWithoutSeparator(s: string, sep: char)
    requires sep !in s
    ensures Split(s, sep) == [s]
  {
    SplitJoin([s], sep);
  }

  /**
   * `s.split(sep).pop()`: the text after the last separator, or all of `s`
   * when it has none.
   */
  function LastSegment(s: string, sep: char): (r: string)
    ensures sep !in r
    ensures |r| <= |s| && r == s[|s| - |r|..]
    ensures |r| == |s| || s[|s| - |r| - 1] == sep
  {
    var parts := Split(s, sep);
    LastSegmentIsSuffix(s, sep);
    parts[|parts| - 1]
  }

  lemma {:induction false} LastSegmentIsSuffix(s: string, sep: char)
    ensures LastPieceIsSuffix(s, sep, Split(s, sep))
    decreases |s|
  {
    if |s| == 0 {
      assert Split(s, sep) == [""];
    } else {
      LastSegmentIsSuffix(s[1..], sep);
      SplitUnfold(s, sep);
      LastPieceStep(s, sep, Split(s[1..], sep), Split(s, sep));
    }
  }

  /** The last piece of `parts` is a suffix of `s`, after a separator unless it is all of `s`. */
  predicate LastPieceIsSuffix(s: string, sep: char, parts: seq<string>) {
    && |parts| >= 1
    && var r := parts[|parts| - 1];
    && |r| <= |s| && r == s[|s| - |r|..]
    && ((|parts| == 1 && r == s) || (|parts| > 1 && |r| < |s| && s[|s| - |r| - 1] == sep))
  }

  /** One step of `split`: the first character starts a new piece or joins the first one. */
  lemma SplitUnfold(s: string, sep: char)
    requires |s| > 0
    ensures var rest := Split(s[1..], sep);
      Split(s, sep) == if s[0] == sep then [""] + rest else [[s[0]] + rest[0]] + rest[1..]
  {
  }

  lemma LastPieceStep(s: string, sep: char, rest: seq<string>, parts: seq<string>)
    requires |s| > 0
    requires LastPieceIsSuffix(s[1..], sep, rest)
    requires parts == if s[0] == sep then [""] + rest else [[s[0]] + rest[0]] + rest[1..]
    ensures LastPieceIsSuffix(s, sep, parts)
  {
    var r := rest[|rest| - 1];
    assert s[1..][|s| - 1 - |r|..] == s[|s| - |r|..];
    if s[0] != sep && |rest| == 1 {
      assert parts[|parts| - 1] == [s[0]] + s[1..] == s;
    } else {
      assert parts[|parts| - 1] == r;
    }
  }

  /** The last segment of `p + [sep] + e` is `e` when `e` has no separator. */
  lemma LastSegmentAfter(p: string, e: string, sep: char)
    requires sep !in e
    ensures LastSegment(p + [sep] + e, sep) == e
  {
    var s := p + [sep] + e;
    assert s[|s| - |e| - 1] == sep;
    assert s[|s| - |e|..] == e;
  }
}

=== FILE: submit_api.dfy ===
/**
 * The serverless submission endpoint (`api/submit.js`): input sanitisation,
 * the ladder of checks that turns a request into an HTTP status, and the
 * nine-cell spreadsheet row built for an accepted candidate. The Google
 * Sheets call, the environment and the clock are parameters.
 */
module SubmitApi {
  import opened JsText
  import opened JsNumber

  const MaxFieldLength := 1000
  const MaxPayloadBytes := 50 * 1024
  const MinNameLength := 2
  const MaxNameLength := 100
  const MaxEmailLength := 254
  const MinAge := 16
  const MaxAge := 99

  /** The characters `sanitizeInput` deletes: `<`, `>`, `"` and `'`. */
  predicate IsDangerous(c: char) {
    c == '<' || c == '>' || c == '"' || c == '\''
  }

  /** Deletes every dangerous character and keeps the others, in order. */
  function RemoveDangerous(s: string): (r: string)
    ensures |r| <= |s|
    ensures forall i :: 0 <= i < |r| ==> !IsDangerous(r[i])
    ensures forall i :: 0 <= i < |r| ==> r[i] in s
  {
    if |s| == 0 then []
    else
      var rest := RemoveDangerous(s[1..]);
      assert forall i :: 0 <= i < |rest| ==> rest[i] in s by {
        forall i | 0 <= i < |rest| ensures rest[i] in s {
          var j :| 0 <= j < |s[1..]| && s[1..][j] == rest[i];
          assert s[j + 1] == rest[i];
        }
      }
      if IsDangerous(s[0]) then rest else [s[0]] + rest
  }

  /**
   * Deletion keeps every other character as often as it occurs: the result
   * and the input agree on the count of each character that is not dangerous.
   */
  lemma {:induction false} RemoveDangerousCounts(s: string)
    ensures forall c :: !IsDangerous(c) ==> multiset(RemoveDangerous(s))[c] == multiset(s)[c]
    decreases |s|
  {
    if |s| > 0 {
      RemoveDangerousCounts(s[1..]);
      assert s == [s[0]] + s[1..];
      assert multiset(s) == multiset([s[0]]) + multiset(s[1..]);
      if !IsDangerous(s[0]) {
        var rest := RemoveDangerous(s[1..]);
        assert multiset([s[0]] + rest) == multiset([s[0]]) + multiset(rest);
      }
    }
  }

  /** `removeDangerous` changes nothing in text that has no dangerous character. */
  lemma {:induction false} RemoveDangerousKeepsClean(s: string)
    requires forall i :: 0 <= i < |s| ==> !IsDangerous(s[i])
    ensures RemoveDangerous(s) == s
    decreases |s|
  {
    if |s| > 0 {
      RemoveDangerousKeepsClean(s[1..]);
      assert s == [s[0]] + s[1..];
    }
  }

  /** Deletion works character by character, so it distributes over concatenation. */
  lemma {:induction false} RemoveDangerousConcat(a: string, b: string)
    ensures RemoveDangerous(a + b) == RemoveDangerous(a) + RemoveDangerous(b)
    decreases |a|
  {
    if |a| > 0 {
      assert (a + b)[1..] == a[1..] + b;
      RemoveDangerousConcat(a[1..], b);
    } else {
      assert a + b == b;
    }
  }

  /** What `sanitizeInput` returns for a string: at most 1000 characters, none of `< > " '`. */
  predicate CleanText(s: string) {
    |s| <= MaxFieldLength && forall i :: 0 <= i < |s| ==> !IsDangerous(s[i])
  }

  /**
   * `sanitizeInput` on a string: trim, delete `< > " '`, keep at most the
   * first 1000 characters.
   */
  function Sanitize(s: string): (r: string)
    ensures |r| <= MaxFieldLength && |r| <= |s|
    ensures forall i :: 0 <= i < |r| ==> !IsDangerous(r[i])
    ensures forall i :: 0 <= i < |r| ==> r[i] in s
  {
    var t := Trim(s);
    TrimKeepsCharacters(s);
    var u := RemoveDangerous(t);
    if |u| <= MaxFieldLength then u else u[..MaxFieldLength]
  }

  lemma TrimKeepsCharacters(s: string)
    ensures forall c :: c in Trim(s) ==> c in s
  {
    var k: nat :| IsPadded(s, Trim(s), k);
    SliceKeepsCharacters(s, Trim(s), k);
  }

  lemma SliceKeepsCharacters(s: string, r: string, k: nat)
    requires k + |r| <= |s| && s[k..k + |r|] == r
    ensures forall c :: c in r ==> c in s
  {
    forall c | c in r ensures c in s {
      var j :| 0 <= j < |r| && r[j] == c;
      assert s[k + j] == c;
    }
  }

  /**
   * Text that is already trimmed, free of dangerous characters and at most
   * 1000 characters long comes out of `sanitizeInput` unchanged.
   */
  lemma SanitizeKeepsCleanInput(s: string)
    requires s == [] || (!IsJsWhitespace(s[0]) && !IsJsWhitespace(s[|s| - 1]))
    requires forall i :: 0 <= i < |s| ==> !IsDangerous(s[i])
    requires |s| <= MaxFieldLength
    ensures Sanitize(s) == s
  {
    TrimKeepsTrimmed(s);
    RemoveDangerousKeepsClean(s);
    SanitizeTrimmed(s);
  }

  /**
   * When the trimmed text has no dangerous character, `sanitizeInput` keeps
   * exactly its first `min(1000, length)` characters.
   */
  lemma SanitizeTruncatesCleanText(s: string)
    requires forall i :: 0 <= i < |Trim(s)| ==> !IsDangerous(Trim(s)[i])
    ensures Sanitize(s) == Trim(s)[..if |Trim(s)| <= MaxFieldLength then |Trim(s)| else MaxFieldLength]
  {
    var t := Trim(s);
    RemoveDangerousKeepsClean(t);
    assert RemoveDangerous(t) == t;
  }

  /**
   * `sanitizeInput` on any string is the composition, in the source's order:
   * trim, then delete the dangerous characters, then keep at most the first
   * 1000 characters.
   */
  lemma SanitizeTrimsDeletesTruncates(s: string)
    ensures var u := RemoveDangerous(Trim(s));
      Sanitize(s) == u[..if |u| <= MaxFieldLength then |u| else MaxFieldLength]
  {
  }

  /**
   * Deletion happens after trimming, so white space uncovered by a deleted
   * character stays: sanitising twice can differ from sanitising once.
   */
  lemma SanitizeNotIdempotent()
    ensures Sanitize("a <") == "a "
    ensures Sanitize(Sanitize("a <")) == "a"
  {
    SanitizeDeletesAfterTrim();
    SanitizeTrimsUncoveredSpace();
  }

  lemma SanitizeDeletesAfterTrim()
    ensures Sanitize("a <") == "a "
  {
    DeletionAfterTrim('a', '<');
  }

  lemma SanitizeTrimsUncoveredSpace()
    ensures Sanitize("a ") == "a"
  {
    TrimAfterDeletion('a');
  }

  lemma DeletionAfterTrim(a: char, d: char)
    requires !IsJsWhitespace(a) && !IsDangerous(a) && IsDangerous(d)
    ensures Sanitize([a, ' ', d]) == [a, ' ']
  {
    var p: string := [a, ' '];
    var e: string := [];
    assert |p| == 2 && p[0] == a && p[1] == ' ';
    assert forall i :: 0 <= i < |p| ==> !IsDangerous(p[i]);
    RemoveAroundDeleted(p, d, e);
    var s := p + ([d] + e);
    assert s == [a, ' ', d];
    TrimKeepsTrimmed(s);
    SanitizeTrimmed(s);
  }

  lemma TrimAfterDeletion(a: char)
    requires !IsJsWhitespace(a) && !IsDangerous(a)
    ensures Sanitize([a, ' ']) == [a]
  {
    var s := [a, ' '];
    assert TrimStart(s) == s;
    assert s[..1] == [a];
    assert TrimEnd(s) == [a];
    RemoveDangerousKeepsClean([a]);
  }

  /** `&` is not among the deleted characters: entity text passes through. */
  lemma SanitizeKeepsAmpersand()
    ensures Sanitize("&lt;b&gt;") == "&lt;b&gt;"
  {
    SanitizeKeepsCleanInput("&lt;b&gt;");
  }

  /**
   * Deleting a dangerous character joins its neighbours: `a<b` sanitises to
   * `ab` when `a` and `b` are clean and the text is already trimmed.
   */
  lemma SanitizeJoinsAroundDeleted(a: string, d: char, b: string)
    requires IsDangerous(d)
    requires forall i :: 0 <= i < |a| ==> !IsDangerous(a[i])
    requires forall i :: 0 <= i < |b| ==> !IsDangerous(b[i])
    requires |a| > 0 && !IsJsWhitespace(a[0]) && |b| > 0 && !IsJsWhitespace(b[|b| - 1])
    requires |a| + |b| <= MaxFieldLength
    ensures Sanitize(a + ([d] + b)) == a + b
  {
    var s := a + ([d] + b);
    assert s[0] == a[0] && s[|s| - 1] == b[|b| - 1];
    TrimKeepsTrimmed(s);
    RemoveAroundDeleted(a, d, b);
    SanitizeTrimmed(s);
  }

  lemma RemoveAroundDeleted(a: string, d: char, b: string)
    requires IsDangerous(d)
    requires forall i :: 0 <= i < |a| ==> !IsDangerous(a[i])
    requires forall i :: 0 <= i < |b| ==> !IsDangerous(b[i])
    ensures RemoveDangerous(a + ([d] + b)) == a + b
  {
    RemoveDangerousConcat(a, [d] + b);
    RemoveDangerousConcat([d], b);
    assert RemoveDangerous([d]) == [] by {
      assert [d][1..] == [];
    }
    RemoveDangerousKeepsClean(a);
    RemoveDangerousKeepsClean(b);
  }

  lemma SanitizeTrimmed(s: string)
    requires Trim(s) == s
    requires |RemoveDangerous(s)| <= MaxFieldLength
    ensures Sanitize(s) == RemoveDangerous(s)
  {
  }

  /** `sanitizeInput` on a body field: a string is sanitised, a missing field stays missing. */
  function SanitizeField(f: Option<string>): (r: Option<string>)
    ensures r.None? <==> f.None?
    ensures r.Some? ==> r.value == Sanitize(f.value)
    ensures r.Some? ==> CleanText(r.value)
    ensures Present(r) ==> Present(f)
  {
    match f
    case None => None
    case Some(s) => Some(Sanitize(s))
  }

  /** `[a-zA-Z0-9._%+-]`, the local-part class of the e-mail pattern. */
  predicate IsLocalChar(c: char) {
    IsAsciiAlnum(c) || c == '.' || c == '_' || c == '%' || c == '+' || c == '-'
  }

  /** `[a-zA-Z0-9.-]`, the domain class of the e-mail pattern. */
  predicate IsDomainChar(c: char) {
    IsAsciiAlnum(c) || c == '.' || c == '-'
  }

  /**
   * The server's split of an address: `s[..at]` is the local part,
   * `s[at + 1..dot]` the domain and `s[dot + 1..]` the top-level domain.
   */
  predicate ServerEmailSplit(s: string, at: nat, dot: nat) {
    && 1 <= at && at + 2 <= dot && dot + 3 <= |s|
    && s[at] == '@' && s[dot] == '.'
    && (forall i :: 0 <= i < at ==> IsLocalChar(s[i]))
    && (forall i :: at < i < dot ==> IsDomainChar(s[i]))
    && (forall i :: dot < i < |s| ==> IsAsciiLetter(s[i]))
  }

  /** `/^[a-zA-Z0-9._%+-]+@[a-zA-Z0-9.-]+\.[a-zA-Z]{2,}$/.test(s)`. */
  predicate ServerEmailPattern(s: string) {
    exists at: nat, dot: nat | at < dot < |s| :: ServerEmailSplit(s, at, dot)
  }

  /** `/^\(\d{2}\)\s\d{4,5}-\d{4}$/.test(s)`. */
  predicate ServerPhonePattern(s: string) {
    && (|s| == 14 || |s| == 15)
    && s[0] == '(' && IsAsciiDigit(s[1]) && IsAsciiDigit(s[2]) && s[3] == ')'
    && IsJsWhitespace(s[4])
    && (forall i :: 5 <= i < |s| - 5 ==> IsAsciiDigit(s[i]))
    && s[|s| - 5] == '-'
    && (forall i :: |s| - 4 <= i < |s| ==> IsAsciiDigit(s[i]))
  }

  /** The reason a request is refused, each with its status and error text. */
  datatype Refusal =
    | MethodNotAllowed
    | PayloadTooLarge
    | MissingFields
    | InvalidName
    | InvalidEmail
    | InvalidPhone
    | InvalidAge
  {
    function Status(): nat {
      match this
      case MethodNotAllowed => 405
      case PayloadTooLarge => 413
      case _ => 400
    }

    function Error(): string {
      match this
      case MethodNotAllowed => "M\U{00E9}todo n\U{00E3}o permitido"
      case PayloadTooLarge => "Payload muito grande"
      case MissingFields => "Campos obrigat\U{00F3}rios faltando"
      case InvalidName => "Nome inv\U{00E1}lido"
      case InvalidEmail => "Email inv\U{00E1}lido"
      case InvalidPhone => "Telefone inv\U{00E1}lido"
      case InvalidAge => "Idade inv\U{00E1}lida"
    }
  }

  /** A spreadsheet cell: the row mixes text with the age as a number. */
  datatype Cell = Text(text: string) | Number(value: int)

  /** What the handler decides before it talks to Google Sheets. */
  datatype Verdict =
    | Preflight
    | Refused(reason: Refusal)
    | Accepted(row: seq<Cell>)

  /** The request as the handler sees it; `payloadBytes` is the size of the serialised body. */
  datatype SubmitRequest = SubmitRequest(
    httpMethod: string,
    payloadBytes: nat,
    nome: Option<string>,
    email: Option<string>,
    telefone: Option<string>,
    idade: Option<string>,
    cargo: Option<string>,
    experiencia: Option<string>,
    motivacao: Option<string>)

  /** The fields after `sanitizeInput`; the two optional texts default to `''` first. */
  datatype Fields = Fields(
    nome: Option<string>,
    email: Option<string>,
    telefone: Option<string>,
    idade: Option<string>,
    cargo: Option<string>,
    experiencia: string,
    motivacao: string)

  /**
   * Every field after sanitising: each present one and both free texts are
   * clean, and an absent or empty free text becomes `''`.
   */
  function SanitizeFields(req: SubmitRequest): (f: Fields)
    ensures f.nome == SanitizeField(req.nome) && f.email == SanitizeField(req.email)
    ensures f.telefone == SanitizeField(req.telefone) && f.idade == SanitizeField(req.idade)
    ensures f.cargo == SanitizeField(req.cargo)
    ensures f.experiencia == Sanitize(OrEmpty(req.experiencia))
    ensures f.motivacao == Sanitize(OrEmpty(req.motivacao))
    ensures CleanField(f.nome) && CleanField(f.email) && CleanField(f.telefone)
    ensures CleanField(f.idade) && CleanField(f.cargo)
    ensures CleanText(f.experiencia) && CleanText(f.motivacao)
    ensures !Present(req.experiencia) ==> f.experiencia == ""
    ensures !Present(req.motivacao) ==> f.motivacao == ""
  {
    SanitizeIsClean(OrEmpty(req.experiencia));
    SanitizeIsClean(OrEmpty(req.motivacao));
    Fields(
      SanitizeField(req.nome), SanitizeField(req.email), SanitizeField(req.telefone),
      SanitizeField(req.idade), SanitizeField(req.cargo),
      Sanitize(OrEmpty(req.experiencia)), Sanitize(OrEmpty(req.motivacao)))
  }

  lemma SanitizeIsClean(s: string)
    ensures CleanText(Sanitize(s))
    ensures s == "" ==> Sanitize(s) == ""
  {
  }

  /** A present field holds clean text. */
  predicate CleanField(x: Option<string>) {
    x.Some? ==> CleanText(x.value)
  }

  predicate AllRequiredPresent(f: Fields) {
    Present(f.nome) && Present(f.email) && Present(f.telefone) && Present(f.idade) && Present(f.cargo)
  }

  /** `parseInt` reads the age as a number from 16 to 99. */
  predicate AgeInRange(idade: string) {
    ParseInt(idade).Some? && MinAge <= ParseInt(idade).value <= MaxAge
  }

  /** `nome.length` from 2 to 100, counted in UTF-16 code units as JavaScript counts it. */
  predicate NameLengthOk(nome: string) {
    MinNameLength <= Utf16Length(nome) <= MaxNameLength
  }

  /** The e-mail matches the server pattern and `email.length` is at most 254. */
  predicate EmailOk(email: string) {
    ServerEmailPattern(email) && Utf16Length(email) <= MaxEmailLength
  }

  /** Every format check after the required-field check passes. */
  predicate FormatValid(nome: string, email: string, telefone: string, idade: string) {
    && NameLengthOk(nome)
    && EmailOk(email)
    && ServerPhonePattern(telefone)
    && AgeInRange(idade)
  }

  /**
   * The format checks after the required-field check, in the source's order:
   * the first that fails decides the refusal, and none is returned when all
   * pass.
   */
  function FormatRefusal(nome: string, email: string, telefone: string, idade: string): (r: Option<Refusal>)
    ensures r == Some(InvalidName) <==> !NameLengthOk(nome)
    ensures r == Some(InvalidEmail) <==> NameLengthOk(nome) && !EmailOk(email)
    ensures r == Some(InvalidPhone) <==>
      NameLengthOk(nome) && EmailOk(email) && !ServerPhonePattern(telefone)
    ensures r == Some(InvalidAge) <==>
      NameLengthOk(nome) && EmailOk(email) && ServerPhonePattern(telefone) && !AgeInRange(idade)
    ensures r.None? <==> FormatValid(nome, email, telefone, idade)
    ensures r.None? || r == Some(InvalidName) || r == Some(InvalidEmail)
      || r == Some(InvalidPhone) || r == Some(InvalidAge)
  {
    if Utf16Length(nome) < MinNameLength || Utf16Length(nome) > MaxNameLength then Some(InvalidName)
    else if !ServerEmailPattern(email) || Utf16Length(email) > MaxEmailLength then Some(InvalidEmail)
    else if !ServerPhonePattern(telefone) then Some(InvalidPhone)
    else if !AgeInRange(idade) then Some(InvalidAge)
    else None
  }

  /**
   * The nine cells written for an accepted candidate, in the sheet's column
   * order: date, name, e-mail in lower case, phone, age as a number, position,
   * experience, motivation and the status `Novo`.
   */
  function CandidateRow(f: Fields, timestamp: string): (row: seq<Cell>)
    requires AllRequiredPresent(f) && AgeInRange(f.idade.value)
    ensures |row| == 9
    ensures row[0] == Text(timestamp) && row[8] == Text("Novo")
    ensures row[1] == Text(f.nome.value) && row[3] == Text(f.telefone.value)
    ensures row[2] == Text(ToLowerAscii(f.email.value))
    ensures row[4].Number? && MinAge <= row[4].value <= MaxAge
    ensures row[4] == Number(ParseInt(f.idade.value).value)
    ensures row[5] == Text(f.cargo.value)
    ensures row[6] == Text(f.experiencia) && row[7] == Text(f.motivacao)
  {
    [Text(timestamp), Text(f.nome.value), Text(ToLowerAscii(f.email.value)),
     Text(f.telefone.value), Number(ParseInt(f.idade.value).value), Text(f.cargo.value),
     Text(f.experiencia), Text(f.motivacao), Text("Novo")]
  }

  /**
   * The validation ladder on sanitised fields, in the source's order, and the
   * row written for an accepted candidate.
   */
  function Validate(f: Fields, timestamp: string): (v: Verdict)
    ensures v.Refused? || v.Accepted?
    ensures !AllRequiredPresent(f) ==> v == Refused(MissingFields)
    ensures v.Accepted? <==>
      AllRequiredPresent(f) && FormatValid(f.nome.value, f.email.value, f.telefone.value, f.idade.value)
    ensures v.Accepted? ==> v.row == CandidateRow(f, timestamp)
    ensures AllRequiredPresent(f) && v.Refused? ==>
      Some(v.reason) == FormatRefusal(f.nome.value, f.email.value, f.telefone.value, f.idade.value)
  {
    if !AllRequiredPresent(f) then Refused(MissingFields)
    else
      match FormatRefusal(f.nome.value, f.email.value, f.telefone.value, f.idade.value)
      case Some(reason) => Refused(reason)
      case None =>
        Accepted(CandidateRow(f, timestamp))
  }

  /**
   * The handler up to the spreadsheet call: the method gate, the payload
   * limit, then sanitisation and the validation ladder.
   */
  function Handle(req: SubmitRequest, timestamp: string): (v: Verdict)
    ensures v.Preflight? <==> req.httpMethod == "OPTIONS"
    ensures v == Refused(MethodNotAllowed) <==> req.httpMethod != "OPTIONS" && req.httpMethod != "POST"
    ensures v == Refused(PayloadTooLarge) <==> req.httpMethod == "POST" && req.payloadBytes > MaxPayloadBytes
    ensures v.Accepted? ==> req.httpMethod == "POST" && req.payloadBytes <= MaxPayloadBytes
    ensures v.Refused? && v.reason.Status() == 400 ==> req.httpMethod == "POST" && req.payloadBytes <= MaxPayloadBytes
  {
    if req.httpMethod == "OPTIONS" then Preflight
    else if req.httpMethod != "POST" then Refused(MethodNotAllowed)
    else if req.payloadBytes > MaxPayloadBytes then Refused(PayloadTooLarge)
    else Validate(SanitizeFields(req), timestamp)
  }

  /** What `sheets.spreadsheets.values.append` did: threw, or answered with a status. */
  datatype AppendOutcome = AppendThrew | AppendReturned(status: int)

  /**
   * The HTTP status the handler answers with. `configured` says whether both
   * Google environment variables are set; the append is only attempted for
   * an accepted request.
   */
  function ResponseStatus(v: Verdict, configured: bool, append: AppendOutcome): (status: nat)
    ensures v.Preflight? ==> status == 200
    ensures v.Refused? ==> status == v.reason.Status() && status != 200
    ensures status == 200 && !v.Preflight? ==> v.Accepted? && configured && append == AppendReturned(200)
    ensures v.Accepted? && !configured ==> status == 500
    ensures v.Accepted? ==> (status == 200 <==> configured && append == AppendReturned(200))
    ensures v.Accepted? ==> status == 200 || status == 500
  {
    match v
    case Preflight => 200
    case Refused(reason) => reason.Status()
    case Accepted(_) =>
      if !configured then 500
      else if append == AppendReturned(200) then 200
      else 500
  }

  /**
   * Every accepted request carries a name of 2 to 100 characters, an address
   * matching the server pattern and at most 254 long, a phone matching the
   * server pattern, and an age `parseInt` reads as 16 to 99, stored as that
   * number.
   */
  lemma AcceptedRequestIsValid(req: SubmitRequest, timestamp: string)
    requires Handle(req, timestamp).Accepted?
    ensures req.nome.Some? && MinNameLength <= Utf16Length(Sanitize(req.nome.value)) <= MaxNameLength
    ensures req.email.Some? && ServerEmailPattern(Sanitize(req.email.value))
    ensures |Sanitize(req.email.value)| <= MaxEmailLength
    ensures req.telefone.Some? && ServerPhonePattern(Sanitize(req.telefone.value))
    ensures req.idade.Some? && AgeInRange(Sanitize(req.idade.value))
    ensures Handle(req, timestamp).row[4] == Number(ParseInt(Sanitize(req.idade.value)).value)
  {
    ServerEmailLength(Sanitize(req.email.value));
  }

  /**
   * The required-field check comes before every format check: a POST within
   * the size limit with any required field missing or sanitised to `''` is
   * refused as missing, whatever the other fields hold.
   */
  lemma MissingFieldComesFirst(req: SubmitRequest, timestamp: string)
    requires req.httpMethod == "POST" && req.payloadBytes <= MaxPayloadBytes
    requires !Present(SanitizeField(req.nome)) || !Present(SanitizeField(req.email))
      || !Present(SanitizeField(req.telefone)) || !Present(SanitizeField(req.idade))
      || !Present(SanitizeField(req.cargo))
    ensures Handle(req, timestamp) == Refused(MissingFields)
  {
  }

  /** The row stores the address lower-cased, and the lower-cased address still matches the pattern. */
  lemma LowerCasedEmailStillMatches(s: string)
    requires ServerEmailPattern(s)
    ensures ServerEmailPattern(ToLowerAscii(s))
  {
    var at: nat, dot: nat :| at < dot < |s| && ServerEmailSplit(s, at, dot);
    assert s[at] == '@';
    var t := ToLowerAscii(s);
    assert |t| == |s| && t[at] == '@' && t[dot] == '.';
    assert forall i :: 0 <= i < at ==> IsLocalChar(t[i]) by {
      forall i | 0 <= i < at ensures IsLocalChar(t[i]) {
        assert t[i] == LowerChar(s[i]);
      }
    }
    assert forall i :: at < i < dot ==> IsDomainChar(t[i]) by {
      forall i | at < i < dot ensures IsDomainChar(t[i]) {
        assert t[i] == LowerChar(s[i]);
      }
    }
    assert forall i :: dot < i < |t| ==> IsAsciiLetter(t[i]) by {
      forall i | dot < i < |t| ensures IsAsciiLetter(t[i]) {
        assert t[i] == LowerChar(s[i]);
      }
    }
    assert ServerEmailSplit(t, at, dot);
  }

  /** An address matching the server pattern is ASCII, so its `length` is its number of code points. */
  lemma ServerEmailLength(s: string)
    requires ServerEmailPattern(s)
    ensures Utf16Length(s) == |s|
  {
    var at: nat, dot: nat :| at < dot < |s| && ServerEmailSplit(s, at, dot);
    forall i | 0 <= i < |s| ensures IsBmp(s[i]) {
      if i < at {
        assert IsLocalChar(s[i]);
      } else if at < i < dot {
        assert IsDomainChar(s[i]);
      } else if dot < i {
        assert IsAsciiLetter(s[i]);
      }
    }
  }

  /** A name of one emoji passes the length check: JavaScript counts its two code units. */
  lemma EmojiNameLength()
    ensures NameLengthOk("\U{1F600}")
  {
    Utf16LengthOfChar('\U{1F600}');
    assert "\U{1F600}" == ['\U{1F600}'];
  }

  /**
   * The status a request ends with: 200 exactly for a preflight, or for a
   * POST within the size limit whose sanitised fields are all present and
   * pass every format check, with the service configured and an append that
   * answered 200; otherwise one of 400, 405, 413 and 500.
   */
  lemma RequestStatus(req: SubmitRequest, timestamp: string, configured: bool, append: AppendOutcome)
    ensures var status := ResponseStatus(Handle(req, timestamp), configured, append);
      var f := SanitizeFields(req);
      && (status == 200 <==>
            || req.httpMethod == "OPTIONS"
            || (&& req.httpMethod == "POST" && req.payloadBytes <= MaxPayloadBytes
                && AllRequiredPresent(f)
                && FormatValid(f.nome.value, f.email.value, f.telefone.value, f.idade.value)
                && configured && append == AppendReturned(200)))
      && (status == 200 || status == 400 || status == 405 || status == 413 || status == 500)
    ensures var status := ResponseStatus(Handle(req, timestamp), configured, append);
      && (status == 405 <==> req.httpMethod != "OPTIONS" && req.httpMethod != "POST")
      && (status == 413 <==> req.httpMethod == "POST" && req.payloadBytes > MaxPayloadBytes)
  {
  }

  /**
   * For a POST within the size limit the answer is the ladder's: a missing
   * field first, then the first failing format check with its reason, and
   * otherwise acceptance with the candidate's row.
   */
  lemma HandleFollowsLadder(req: SubmitRequest, timestamp: string)
    requires req.httpMethod == "POST" && req.payloadBytes <= MaxPayloadBytes
    ensures var v := Handle(req, timestamp);
      var f := SanitizeFields(req);
      && (!AllRequiredPresent(f) ==> v == Refused(MissingFields))
      && (AllRequiredPresent(f) ==>
            && (v.Refused? <==> FormatRefusal(f.nome.value, f.email.value, f.telefone.value, f.idade.value).Some?)
            && (v.Refused? ==> Some(v.reason) == FormatRefusal(f.nome.value, f.email.value, f.telefone.value, f.idade.value))
            && (v.Accepted? ==> v.row == CandidateRow(f, timestamp)))
  {
    var f := SanitizeFields(req);
    assert Handle(req, timestamp) == Validate(f, timestamp);
  }

  /**
   * The `error` texts of the answers are pairwise different, so a client can
   * tell every refusal apart by its text alone.
   */
  lemma RefusalErrorsDistinct(a: Refusal, b: Refusal)
    ensures a.Error() == b.Error() <==> a == b
  {
  }
}
